=== FILE: README.md ===
# WooCommerce product editor: the data layer, in Dafny

`app.py` is a Streamlit page for editing WooCommerce products. The operator
types a product id. The page reads the product and, for a variable product,
all its variations, page after page. Each record becomes a row of an
editable table. The operator edits stock and sale prices, ticks rows and
clicks "Update Selected Products", whose code sends each ticked row back,
one PUT per row, and counts the replies. As written, that code sits inside
the branch of the "Fetch Product" button, so under Streamlit's rerun model
it is never reached (see "## Left out"); the model describes the update
loop as the code states it, for a run that reaches it.

This project models the data logic under that page and proves what it
promises:

- the three cell coercions `is_nan_or_empty`, `coerce_int_or_none` and
  `coerce_price_or_empty`;
- the product-id check;
- the row built from each fetched record;
- the variation pagination loop;
- the request body and endpoint of each update;
- the update loop with its tally of successes and failures.

Modules:

- `Wrappers` (wrappers.dfy): `Option`.
- `PyStrings` (pystrings.dfy): `str.isspace`, `str.strip()`, the
  narrower whitespace that `int()` and `float()` skip around a number
  (it leaves out the separators U+001C..U+001F), and the test
  `s.lower() == "nan"`.
- `PyNumbers` (pynumbers.dfy): the Python conversions the page relies on:
  - `str(i)` and `int(s)`;
  - `float(s)` for decimal literals, with underscores, a sign and an
    exponent;
  - `int(x)` of a float, which truncates toward zero;
  - `str(x)` of a float.

  A float is an exact decimal `mantissa / 10^scale`.
- `Cells` (cells.dfy): the Python values a table cell or a JSON field holds
  (None, NaN, ±inf, bool, int, float, str), with:
  - truthiness, `str()`, `int()` and pandas' `== True`;
  - the three coercion helpers.
- `Grid` (grid.dfy): a JSON record, a table row and an HTTP response.
- `CatalogFetch` (fetch.dfy):
  - id validation and row normalisation;
  - `ReadVariations`, the pagination loop, as a method;
  - `FetchProduct`, the whole fetch, as a method;
  - `ReadVariations` is proved equal to the functions `VariationRows`,
    `StopWarning` and `PageUrls`, and `FetchProduct` to the functions
    `Fetch` and `Reads`; the lemmas are about these functions.
- `CatalogUpdate` (update.dfy):
  - `Payload` and `BuildPayload`, the request body, which the source
    builds key by key;
  - `TargetOf`, `Url` and `Route`, the endpoint choice and its inverse;
  - `UpdateSelected`, the update loop, as a method proved equal to `Batch`
    and `Sent`;
  - the notices a batch shows.

The catalog is a parameter throughout:

- **The product read** is one response.
- **The variation pages** are a finite sequence. A page past its end is
  answered 200 with an empty list, as WooCommerce does.
- **The PUT replies** are a function `respond(k, request)` that gives the
  reply to the `k`-th request of the batch.

Exceptions the page does not catch are outcomes:

- **`MissingId`**: `p['id']` on a variable product without an id.
- **`Aborted(k)`**: `int()` rejects the id or the parent id of the `k`-th
  selected row. The loop stops there, after the requests already sent.

## Model

| member | source | states |
|---|---|---|
| Cells.IsNanOrEmpty | app.py:37-44 | true exactly for None, a NaN float, or a string made only of whitespace (so empty after `strip()`); false for every other value |
| Cells.Truthy | app.py:88-92 | `bool(v)`: None, False, zero and the empty string are falsy; NaN, the infinities and every other value are truthy |
| Cells.Text | app.py:57 | `str(v)` of a cell: "None", "nan", "inf", "True"/"False", the decimal text of an int, the fixed-point text of a float, a string itself |
| Cells.ToFloat | app.py:50 | `float(v)` when finite: bools as 0 and 1, ints and floats as themselves, a str parsed as a float literal; None where `float()` raises or gives an infinity or NaN |
| Cells.CoerceIntOrNone | app.py:46-52 | never fails: None for an empty or NaN cell and for every value `float()` rejects or makes infinite; otherwise `Some(n)` with `n` the value truncated toward zero |
| Cells.CoerceIntOfIntText | app.py:50 | a stock cell holding the text of an integer coerces to that integer |
| Cells.CoerceIntTruncatesText | app.py:50 | a stock cell holding `n.f` or `-n.f` coerces to `n` or `-n` ("3.7" gives 3, "-3.7" gives -3) |
| Cells.CoerceIntIdempotent | app.py:46-52 | coercing an already coerced stock gives the same result |
| Cells.CoercePriceOrEmpty | app.py:54-60 | "" for an empty or NaN cell and for any text that strips to a spelling of "nan"; otherwise the stripped text; the result never has whitespace at either end and never spells "nan" |
| Cells.CoercePriceIdempotent | app.py:54-60 | coercing a coerced price again gives the same price |
| Cells.CoercePriceFixedPoints | app.py:57-60 | a price text comes back unchanged exactly when it has no whitespace at either end and does not spell "nan" |
| Cells.ToIntOfIntText | app.py:181 | `int()` of the text of an integer is that integer |
| Cells.ToInt | app.py:181-183 | `int(v)`: exact for an int, truncating for a float, parsing for a str; None where `int()` raises (None, NaN, an infinity, text that is not an integer literal) |
| Cells.IsTrueFlag | app.py:154 | pandas' element-wise `v == True` on an "Update?" cell: true for True, for the int 1 and for a float equal to 1.0; false for every other value |
| PyStrings.StripIsTrimmedInfix | app.py:57 | `strip()` returns a piece of its argument with only whitespace cut on each side, and that piece has no whitespace at either end |
| PyStrings.StripEmptyIffAllSpace | app.py:42 | `s.strip() == ""` exactly when every character of `s` is whitespace |
| PyStrings.StripIdempotent | app.py:57 | stripping twice is stripping once |
| PyStrings.StripPadded | app.py:65 | whitespace around a string that has none at its ends is exactly what `strip()` removes |
| PyStrings.Strip | app.py:42 | `strip()` returns no more characters than it is given, with no whitespace at either end |
| PyStrings.NumberStrip | app.py:50 | the text `int()` and `float()` parse never starts or ends with their whitespace, which leaves out the separators U+001C..U+001F |
| PyStrings.NumberStripKeepsSeparators | app.py:65 | `strip()` removes a leading U+001F; the whitespace skipping of `int()` keeps it |
| PyStrings.IsNanText | app.py:58 | `s.lower() == "nan"`: exactly the three-character strings whose letters are N or n, A or a, N or n, since no other character lower-cases into a piece of "nan" |
| PyNumbers.ParseIntOfIntText | app.py:65 | `int(str(i)) == i` |
| PyNumbers.IntText | app.py:75 | `str(i)` inside the f-strings of app.py: a minus sign exactly for a negative int, then digits only, with no leading zero for a non-zero int; its value reads back by `ParseIntOfIntText` |
| PyNumbers.DecimalText | app.py:57 | `str(x)` of a finite float in fixed-point notation: a minus sign for a negative value, the integer part, a point, and the fraction without trailing zeros (at least one digit) |
| PyNumbers.ParseInt | app.py:65 | `int(s)` of a str: an optional sign and digits (single underscores between digits allowed) between whitespace; None for the `ValueError` of anything else |
| PyNumbers.ParseIntAfterStrip | app.py:65 | stripping before `int()` matters: `int("\x1f5")` raises, while `int("\x1f5".strip())` is 5 |
| PyNumbers.ParseFloat | app.py:50 | `float(s)` of a str: an optional sign, a decimal mantissa and an optional exponent between whitespace; None for malformed text and for the spellings of infinity and NaN |
| PyNumbers.ParseFloatOfIntText | app.py:50 | `float(str(i))` is exactly `i` |
| PyNumbers.ParseFloatOfFractionText | app.py:50 | `float("[-]n.f")` is the decimal spelled by the digits of `n` and `f`, scaled by the length of `f` and negated after `-` |
| PyNumbers.Truncate | app.py:50 | `int(x)` of a finite float lies toward zero from `x` and less than one away from it |
| PyNumbers.TowardZeroUnique | app.py:50 | exactly one integer lies toward zero from a value and less than one away, so `Truncate` is determined by its contract |
| PyNumbers.TruncateDropsFraction | app.py:50 | truncating `±(n + fraction)` gives `±n` |
| PyNumbers.DigitsValueOfDigitsOf | app.py:65 | the digits `str()` writes for a natural number read back as that number |
| PyNumbers.DigitsValueAppend | app.py:50 | digits written after other digits shift them left by as many places |
| CatalogFetch.ValidateProductId | app.py:62-68 | nothing happens for an empty box; the id is `int()` of the stripped text when that succeeds, and "must be an integer" otherwise |
| CatalogFetch.ValidateProductIdOfIntText | app.py:64-65 | any integer typed with whitespace around it is accepted as itself |
| CatalogFetch.BaseRow | app.py:83-93 | the product's row is ticked, has no parent, keeps id, name and type, and falls back to 0 for a falsy stock and to "" for falsy prices; "Manage Stock" is `bool()` of the field |
| CatalogFetch.VariationRow | app.py:115-125 | a variation's row is ticked and names the product as its parent; a falsy name falls back to the product's name, a falsy type to "variation", a falsy stock to 0 and falsy prices to "" |
| Grid.Or | app.py:88-90 | `a or b`: `a` when it is truthy, `b` otherwise |
| Grid.Get | app.py:85-124 | `record.get(key)`: the field when the key is present, None otherwise |
| CatalogFetch.PagesRead | app.py:98-112 | the loop takes rows from the pages before the first page that failed or came back empty, and from no other page |
| CatalogFetch.Continues | app.py:106-112 | the loop goes on after a page exactly when its status is 200 and its list is not empty |
| CatalogFetch.PagesReadIsFirstStop | app.py:99-112 | that count is the only one meeting those stop conditions |
| CatalogFetch.StopAt | app.py:106-112 | a loop that has read `k` good pages and then meets a failed or empty page has read all it will read; it warns exactly when that page failed |
| CatalogFetch.VariationRowsLength | app.py:114-126 | one row per variation on the pages read |
| CatalogFetch.VariationRowAt | app.py:114-128 | item `i` of page `j + 1` sits right after the items of the earlier pages: page order, then order within the page |
| CatalogFetch.VariationRowsNormalised | app.py:115-126 | every variation row is normalised and names the product as its parent |
| CatalogFetch.VariationRows | app.py:99-128 | the rows the loop builds from the first `k` pages: the rows of each page, page after page |
| CatalogFetch.RowsOfPage | app.py:114-126 | the rows of one page: one `VariationRow` per variation, in page order |
| CatalogFetch.PageUrlAt | app.py:98-104 | the `j`-th page requested is page `j + 1` of the product's variations, 100 per page: no page skipped or read twice |
| CatalogFetch.AppendPage | app.py:114-126 | the loop over one page appends that page's rows, in order, to those before |
| CatalogFetch.ReadVariations | app.py:97-128 | the pagination loop returns the rows of the pages read, the warning of the page that stopped it, and reads pages 1 to one past the last page read |
| CatalogFetch.FetchProduct | app.py:74-128 | a failed product read gives the error and no table; otherwise the table is the product row, then, for a variable product, the variation rows, with `p['id']` missing as an error |
| CatalogFetch.Fetch | app.py:74-128 | the outcome of a fetch as a function of the catalog's replies; `FetchProduct` is proved equal to it |
| CatalogFetch.FetchedTable | app.py:83-128 | the product's row comes first, every row is normalised, and every later row has the product as its parent |
| CatalogFetch.FetchedVariationsInPageOrder | app.py:94-128 | in the table, the rows of the variations follow the product row in page order |
| CatalogFetch.FetchStopsAtFirstEmptyOrFailedPage | app.py:98-128 | the loop reads one page more than it takes rows from, numbered 1, 2, 3, ...; every page read continues it, the next stops it, and a warning is shown exactly when that page failed, carrying its status |
| CatalogFetch.ReadsInPageOrder | app.py:100-104 | after the product itself, the fetch reads pages 1, 2, ... of its variations, in order |
| CatalogFetch.ProductUrl | app.py:75 | the product read goes to `base/products/` followed by `str()` of the typed id |
| CatalogFetch.VariationsUrl | app.py:100-104 | page `page` of the variations is read at `base/products/{p['id']}/variations` with `per_page=100` and that page number |
| CatalogFetch.PageUrls | app.py:98-104 | the URLs of pages 1 to `n`, one per page, in order |
| CatalogFetch.Reads | app.py:74-104 | the GETs of a fetch: the product URL, then, for a variable product with an id, the pages up to and including the one that stopped the loop |
| CatalogFetch.StopWarning | app.py:106-108 | the status of the page that stopped the loop when that page failed; none when the loop stopped on an empty page |
| CatalogFetch.StopConditions | app.py:106-112 | the pages read all continue the loop and the next one stops it |
| CatalogUpdate.Payload | app.py:162-176 | `stock_quantity` is sent exactly when the coerced stock is not None, and then as that integer; `manage_stock` is sent exactly with it and is always True; `sale_price` is always sent, as the coerced price ("" clears it); no other key |
| CatalogUpdate.BuildPayload | app.py:166-176 | the body built key by key is that payload |
| CatalogUpdate.PayloadIgnoresManageStock | app.py:164-169 | the "Manage Stock" box has no effect on what is sent |
| CatalogUpdate.PayloadOfIntStock | app.py:168-170 | a whole-number stock is sent as itself, with stock management on |
| CatalogUpdate.PayloadKeepsSalePrice | app.py:172-173 | a sale price with no surrounding whitespace that does not spell "nan" is sent unchanged |
| CatalogUpdate.TargetOf | app.py:179-184 | a row whose parent is NaN, None or "" goes to its product; any other row goes to the variation under `int(parent)`; no target when `int()` raises on either id |
| CatalogUpdate.IsProductLevel | app.py:182 | `pd.isna(parent_id) or parent_id in (None, "")`: true for None, NaN and the empty string |
| CatalogUpdate.Url | app.py:180-184 | the product URL `base/products/id`, or the variation URL `base/products/parent/variations/id` |
| CatalogUpdate.RequestFor | app.py:178-190 | the PUT for a row: the URL of its target with its payload as body; none when `int()` raises on its id or parent id |
| CatalogUpdate.CanonicalInt | app.py:181 | an integer read back from a URL is one whose text is exactly that piece of the URL |
| CatalogUpdate.RoutePathOfProduct | app.py:181 | the path of a product target reads back as that product |
| CatalogUpdate.RoutePathOfVariation | app.py:183 | the path of a variation target reads back as that variation under that product |
| CatalogUpdate.RouteOfUrl | app.py:180-184 | every target's URL reads back as that target |
| CatalogUpdate.UrlOfRoute | app.py:180-184 | a URL that reads back as a target is exactly that target's URL |
| CatalogUpdate.UrlInjective | app.py:180-184 | different targets get different URLs |
| CatalogUpdate.RequestForRoutes | app.py:178-190 | a request is made exactly for a row with a target; its URL reads back as that target and its body is the row's payload |
| CatalogUpdate.PrepareRequest | app.py:162-184 | the loop body builds that request for a row, or stops where `int()` raises |
| CatalogUpdate.FailMessage | app.py:195-197 | a failure line starts with the row's id and the status, followed by at most the first 300 characters of the reply |
| CatalogUpdate.Succeeded | app.py:192 | a reply counts as an update exactly when its status is 200 or 201 |
| CatalogUpdate.SelectedRows | app.py:154 | the selected rows are exactly the table's rows whose "Update?" equals True, and no more than the table has |
| CatalogUpdate.SelectedAppend | app.py:154 | selection keeps table order |
| CatalogUpdate.Selected | app.py:154 | the rows whose "Update?" equals True, in table order |
| CatalogUpdate.Routable | app.py:161-184 | the loop gets through the selected rows before the first one whose target raises |
| CatalogUpdate.RequestsUpToAt | app.py:161-190 | the `j`-th PUT sent is the request for the `j`-th selected row |
| CatalogUpdate.TallyOf | app.py:158-197 | updates and failure lines together count every reply once |
| CatalogUpdate.Successes | app.py:192-193 | the positions of the replies whose status is 200 or 201 |
| CatalogUpdate.FailLines | app.py:194-197 | the failure line of each failed reply, once each, in row order |
| CatalogUpdate.TallyOfCounts | app.py:158-197 | the count of updates is the number of 200 or 201 replies, and the failure lines are `FailLines`: one per failed reply, in row order; together they count every reply once |
| CatalogUpdate.TallyWitnesses | app.py:192-197 | there is an update exactly when some reply was 200 or 201, and a failure line exactly when some reply was neither; every failure line is that of a failed reply and names its row |
| CatalogUpdate.TallyStep | app.py:192-197 | a 200 or 201 reply adds one update; any other reply appends its failure line |
| CatalogUpdate.UpdateSelected | app.py:153-197 | the update loop ends as `Batch` says (nothing selected, finished with a tally, or aborted at a row) and sends exactly the requests `Sent` lists, in order |
| CatalogUpdate.Batch | app.py:153-197 | the outcome of a batch as a function of the table and the replies; `UpdateSelected` is proved equal to it |
| CatalogUpdate.Sent | app.py:161-190 | the PUTs a batch sends, in order: the requests of the selected rows before the first whose `int()` raises |
| CatalogUpdate.Notices | app.py:155-202 | "No rows selected for update." for an empty selection; after a finished batch, the success notice with the count when it is not zero and the error notice joining the failure lines when there are any; nothing for an aborted batch |
| CatalogUpdate.JoinLines | app.py:202 | `"\n".join(lines)`: the lines in order with a newline between each two |
| CatalogUpdate.NoticesOfFinished | app.py:199-202 | a finished batch shows a success notice first exactly when something was updated, and an error notice last exactly when something failed |
| CatalogUpdate.BatchReports | app.py:153-202 | a batch that sends every selected row gets one reply per row, its update count plus its failure lines equals the number of selected rows, its update count is the number of replies that succeeded and its failure lines are `FailLines` of the replies; it reports success exactly when some reply succeeded and failure exactly when some reply failed |
| CatalogUpdate.FetchedRowsRouteHome | app.py:179-184 | a fetched product row is sent to the product URL of its record's own `"id"` (the URL the product was read from when the catalog returns the id it was asked for, which nothing in app.py checks), and a fetched variation row to that variation under its product |
| CatalogUpdate.FetchedTableSentInFull | app.py:154-184 | a fetched table whose rows all have integer ids is sent in full, one PUT per row |
| CatalogUpdate.BatchOfSendable | app.py:154-197 | a table whose rows are all ticked and all have a target finishes, with one PUT per row |
| CatalogUpdate.AllSelected | app.py:154 | when every row is ticked, the selection is the whole table |
| CatalogUpdate.RoutableAll | app.py:179-184 | when every row has a target, the loop gets through all of them |

## Left out

- The Streamlit page itself: layout, text box, buttons, spinner, the data
  editor and its column configuration, and `st.stop()`. The model starts
  from the text in the id box and from the edited table.
- Network I/O and authentication (`requests.get`, `requests.put`, the
  credential tuple). Responses are parameters. A `requests` call that
  raises (connection error, timeout) is not modelled.
- Secrets loading and the credential check (app.py:23-30): configuration,
  not data logic. The API root is a parameter `base`.
- Response bodies that are not what the page expects: a product body that
  is not a JSON object, or a variations body that is not a list. The
  model's bodies are a record and a list of records.
- The text of the error and warning notices of a fetch. The model keeps
  only their status codes.
- The exception display of an aborted batch. `Notices` shows nothing for
  it.
- The update branch is unreachable as written. `st.button("Update
  Selected Products")` (app.py:153) sits inside `if st.button("Fetch
  Product") and product_id_input:` (app.py:62). A Streamlit button is true
  only on the rerun its own click starts, so on the click of "Update
  Selected Products" the "Fetch Product" button is false and app.py:64-202
  do not run; an edit in the data editor likewise reruns the page and
  drops the table. The model's `UpdateSelected` describes the loop as the
  code states it, as if that branch were reached; the rerun model itself
  is not modelled.
- A catalog that never answers a variations page with a failure or an
  empty list. The `while True` loop (app.py:99) has no page cap, so against
  such a catalog (one that ignores `page`, say) it runs forever. The model's
  catalog holds finitely many pages and answers an empty list past them,
  so the model's loop always ends.
- The "No product found." branch (app.py:203-204). The product row is
  always appended, so this branch never runs.
- pandas: the DataFrame, its column dtypes and `iterrows`. A table is a
  sequence of rows whose cells are Python values as pandas hands them
  over; a column upcast from int to float is not modelled.
- JSON key order in the request body. A body is a map.
- Cells.ToFloat and Cells.CoerceIntOrNone: a finite float is an exact decimal. Binary64 rounding, its
  range and overflow to infinity are not modelled, and neither is `-0.0`.
  `float()` of "inf", "nan" and "infinity" gives None, the value on which
  `int()` then raises.
  So `CoerceIntOrNone` gives `Some` for "1e400" and for the int `10**400`,
  where Python's `float()` gives inf or raises `OverflowError` and
  `coerce_int_or_none` returns None.
- Cells.Text and PyNumbers.DecimalText: `str()` of a float is written in fixed-point notation. Python
  switches to exponent notation for very large or very small magnitudes;
  that switch is not modelled.
- PyNumbers.ParseInt and PyNumbers.ParseFloat: only ASCII digits are
  digits. Python also accepts other Unicode decimal digits; those are not
  modelled.
- PyNumbers.ParseInt and PyNumbers.IntText: Python limits `int()` of a str
  and `str()` of an int to 4300 digits (`sys.int_max_str_digits`) and
  raises `ValueError` beyond it. The model converts integers of any length.
- Cells.IsTrueFlag: pandas compares a float `1.0` with `True` as equal,
  and the model does the same. Other objects pandas might hold in the
  "Update?" column are not modelled.

=== FILE: cells.dfy ===
/**
 * The values a grid cell or a field of a fetched JSON record can hold, and the
 * three total coercion helpers that turn such a value into what the update
 * request carries: `is_nan_or_empty`, `coerce_int_or_none` and
 * `coerce_price_or_empty`. Also Python's `bool(v)`, `str(v)`, `int(v)`,
 * `float(v)` and pandas' `v == True` on these values.
 */
module Cells {
  import opened Wrappers
  import opened PyStrings
  import opened PyNumbers

  /** A Python scalar as pandas or the JSON decoder hands it over. */
  datatype Value =
    | Null                  // None (also a missing key read with .get)
    | NaN                   // float('nan'): what pandas puts in an empty numeric cell
    | Inf(negative: bool)   // float('inf') or float('-inf')
    | Bool(b: bool)
    | Int(i: int)
    | Float(d: Decimal)     // a finite float
    | Str(s: string)

  /** `bool(v)`. NaN is truthy in Python. */
  predicate Truthy(v: Value) {
    match v
    case Null => false
    case NaN => true
    case Inf(_) => true
    case Bool(b) => b
    case Int(i) => i != 0
    case Float(d) => d.mantissa != 0
    case Str(s) => s != []
  }

  /** `str(v)` (floats in fixed-point notation). */
  function Text(v: Value): string {
    match v
    case Null => "None"
    case NaN => "nan"
    case Inf(negative) => if negative then "-inf" else "inf"
    case Bool(b) => if b then "True" else "False"
    case Int(i) => IntText(i)
    case Float(d) => DecimalText(d)
    case Str(s) => s
  }

  /** `is_nan_or_empty(value)` (app.py:37-44): None, a NaN float, or a string
      that `strip()` leaves empty. */
  function IsNanOrEmpty(v: Value): (b: bool)
    ensures b <==> v.Null? || v.NaN? || (v.Str? && AllSpace(v.s))
  {
    if v.Str? then
      StripEmptyIffAllSpace(v.s);
      Strip(v.s) == []
    else v.Null? || v.NaN?
  }

  /** `float(v)` when it is finite; `None` when `float()` raises or yields an
      infinity or NaN, on all of which the `int()` applied next raises. */
  function ToFloat(v: Value): Option<Decimal> {
    match v
    case Null => None
    case NaN => None
    case Inf(_) => None
    case Bool(b) => Some(Decimal(if b then 1 else 0, 0))
    case Int(i) => Some(Decimal(i, 0))
    case Float(d) => Some(d)
    case Str(s) => ParseFloat(s)
  }

  /** `coerce_int_or_none(value)` (app.py:46-52): `int(float(value))` with every
      exception turned into `None`. */
  function CoerceIntOrNone(v: Value): (r: Option<int>)
    ensures IsNanOrEmpty(v) ==> r.None?
    ensures !IsNanOrEmpty(v) ==> (r.Some? <==> ToFloat(v).Some?)
    ensures r.Some? ==> TowardZero(ToFloat(v).value, r.value)
  {
    if IsNanOrEmpty(v) then None
    else match ToFloat(v)
      case None => None
      case Some(d) => Some(Truncate(d))
  }

  /** `coerce_price_or_empty(value)` (app.py:54-60): the trimmed text of the
      value, or `""` for an empty or NaN value and for any spelling of "nan". */
  function CoercePriceOrEmpty(v: Value): (r: string)
    ensures IsNanOrEmpty(v) ==> r == []
    ensures r == [] || r == Strip(Text(v))
    ensures !IsNanOrEmpty(v) && !IsNanText(Strip(Text(v))) ==> r == Strip(Text(v))
    ensures Trimmed(r) && !IsNanText(r)
  {
    if IsNanOrEmpty(v) then []
    else
      var s := Strip(Text(v));
      StripIsTrimmedInfix(Text(v));
      if IsNanText(s) then [] else s
  }

  /** `int(v)`: exact for an int, truncating for a float, parsing for a str;
      `None` where Python raises (None, NaN, an infinity, text that is not an
      integer literal). */
  function ToInt(v: Value): Option<int> {
    match v
    case Null => None
    case NaN => None
    case Inf(_) => None
    case Bool(b) => Some(if b then 1 else 0)
    case Int(i) => Some(i)
    case Float(d) => Some(Truncate(d))
    case Str(s) => ParseInt(s)
  }

  /** pandas' element-wise `v == True`: True itself, and any number equal to 1. */
  predicate IsTrueFlag(v: Value) {
    v == Bool(true) || v == Int(1) || (v.Float? && v.d.mantissa == Pow10(v.d.scale))
  }

  /** `Some(i)` as the int `i`, `None` as None: the value a coerced cell holds. */
  function OfOptionalInt(o: Option<int>): Value {
    match o
    case None => Null
    case Some(i) => Int(i)
  }

  // ----- Properties of the coercions -----

  /** Coercing a coerced stock value again gives the same result. */
  lemma CoerceIntIdempotent(v: Value)
    ensures CoerceIntOrNone(OfOptionalInt(CoerceIntOrNone(v))) == CoerceIntOrNone(v)
  {
    var r := CoerceIntOrNone(v);
    if r.Some? {
      TruncateIntegral(r.value);
    }
  }

  /** A stock cell holding the text of an int coerces to that int. */
  lemma CoerceIntOfIntText(i: int)
    ensures CoerceIntOrNone(Str(IntText(i))) == Some(i)
  {
    var s := IntText(i);
    assert !IsNanOrEmpty(Str(s)) by {
      assert !IsSpace(s[|s| - 1]);
    }
    assert ToFloat(Str(s)) == Some(Decimal(i, 0)) by {
      ParseFloatOfIntText(i);
    }
    TruncateIntegral(i);
  }

  /** A stock cell holding `[-]n.f` coerces to `n` or `-n`: the fraction is
      dropped toward zero ("3.7" gives 3, "-3.7" gives -3). */
  lemma CoerceIntTruncatesText(neg: bool, n: nat, f: string)
    requires f != [] && AllDigits(f)
    ensures CoerceIntOrNone(Str((if neg then "-" else "") + (DigitsOf(n) + "." + f)))
            == Some(if neg then -(n as int) else n)
  {
    var s := (if neg then "-" else "") + (DigitsOf(n) + "." + f);
    var m := n * Pow10(|f|) + DigitsValue(f);
    EndsInDigit(s, f);
    ParseFloatOfFractionText(neg, n, f, m);
    DigitsValueBound(f);
    DigitCountAllDigits(f);
    TruncateDropsFraction(neg, n, DigitsValue(f), |f|, m);
    CoerceIntOfFinite(Str(s), Signed(neg, Decimal(m, |f|)));
  }

  /** Text that ends in a digit is not blank. */
  lemma EndsInDigit(s: string, f: string)
    requires f != [] && AllDigits(f) && |f| <= |s| && s[|s| - |f|..] == f
    ensures !IsNanOrEmpty(Str(s))
  {
    assert s[|s| - 1] == f[|f| - 1];
  }

  /** A value that is not blank and whose `float()` is the finite `d` coerces to `int(d)`. */
  lemma CoerceIntOfFinite(v: Value, d: Decimal)
    requires !IsNanOrEmpty(v) && ToFloat(v) == Some(d)
    ensures CoerceIntOrNone(v) == Some(Truncate(d))
  {
  }

  /** Coercing a coerced price again gives the same price. */
  lemma CoercePriceIdempotent(v: Value)
    ensures CoercePriceOrEmpty(Str(CoercePriceOrEmpty(v))) == CoercePriceOrEmpty(v)
  {
    var r := CoercePriceOrEmpty(v);
    if r != [] {
      assert !IsSpace(r[0]);
      StripTrimmed(r);
    }
  }

  /** The strings a price cell keeps unchanged are exactly those with no
      whitespace at either end that do not spell "nan". */
  lemma CoercePriceFixedPoints(s: string)
    ensures CoercePriceOrEmpty(Str(s)) == s <==> Trimmed(s) && !IsNanText(s)
  {
    if Trimmed(s) && !IsNanText(s) && s != [] {
      assert !IsSpace(s[0]);
      StripTrimmed(s);
    }
  }

  /** `int(str(i)) == i` on a cell. */
  lemma ToIntOfIntText(i: int)
    ensures ToInt(Str(IntText(i))) == Some(i)
  {
    ParseIntOfIntText(i);
  }
}

=== FILE: fetch.dfy ===
/**
 * Fetching a product for the editor (app.py:62-128): the product id typed by
 * the operator is validated, the product is read, and when it is a variable
 * product its variations are read page after page. Every record fetched
 * becomes one row of the grid, with defaults filled in.
 *
 * The catalog is a parameter: the response to the product read, and the
 * pages of variations it serves. It holds finitely many pages; asked for a
 * page past the last one it answers 200 with an empty list.
 */
module CatalogFetch {
  import opened Wrappers
  import opened PyStrings
  import opened PyNumbers
  import opened Cells
  import opened Grid

  // ----- The product id (app.py:62-68) -----

  /** What the "Fetch Product" action makes of the text in the id box. */
  datatype IdEntry =
    | NoEntry               // the box is empty: nothing happens
    | NotAnInteger          // "Product ID must be an integer." and the run stops
    | ProductId(id: int)

  /** `int(str(product_id_input).strip())`, guarded by `and product_id_input`. */
  function ValidateProductId(input: string): (r: IdEntry)
    ensures r == NoEntry <==> input == []
    ensures r.ProductId? <==> input != [] && ParseInt(Strip(input)).Some?
    ensures r.ProductId? ==> r.id == ParseInt(Strip(input)).value
  {
    if input == [] then NoEntry
    else
      match ParseInt(Strip(input))
      case None => NotAnInteger
      case Some(i) => ProductId(i)
  }

  /** Any integer typed with whitespace around it is accepted as itself. */
  lemma ValidateProductIdOfIntText(before: string, i: int, after: string)
    requires AllSpace(before) && AllSpace(after)
    ensures ValidateProductId(before + IntText(i) + after) == ProductId(i)
  {
    IntTextTrimmed(i);
    StripPadded(before, IntText(i), after);
    ParseIntOfIntText(i);
  }

  // ----- One record, one grid row (app.py:83-93, 115-125) -----

  /** Every fetched row is selected for update, has a boolean "Manage Stock",
      and has a stock, sale price and regular price that are either the
      record's own (truthy) value or the default. */
  predicate Normalised(r: GridRow) {
    && r.update == Bool(true)
    && r.manageStock.Bool?
    && (Truthy(r.stock) || r.stock == Int(0))
    && (Truthy(r.salePrice) || r.salePrice == Str(""))
    && (Truthy(r.regularPrice) || r.regularPrice == Str(""))
  }

  /** The row of the product itself (`base_info`). */
  function BaseRow(p: Record): (r: GridRow)
    ensures Normalised(r)
    ensures r.id == Get(p, "id") && r.parentId == Null
    ensures r.name == Get(p, "name") && r.kind == Get(p, "type")
    ensures r.stock == (if Truthy(Get(p, "stock_quantity")) then Get(p, "stock_quantity") else Int(0))
    ensures r.salePrice == (if Truthy(Get(p, "sale_price")) then Get(p, "sale_price") else Str(""))
    ensures r.regularPrice == (if Truthy(Get(p, "regular_price")) then Get(p, "regular_price") else Str(""))
    ensures r.manageStock == Bool(Truthy(Get(p, "manage_stock")))
  {
    GridRow(
      update := Bool(true),
      id := Get(p, "id"),
      parentId := Null,
      name := Get(p, "name"),
      stock := Or(Get(p, "stock_quantity"), Int(0)),
      salePrice := Or(Get(p, "sale_price"), Str("")),
      regularPrice := Or(Get(p, "regular_price"), Str("")),
      kind := Get(p, "type"),
      manageStock := Bool(Truthy(Get(p, "manage_stock"))))
  }

  /** The row of one variation `v` of product `p` (`var_info`). */
  function VariationRow(p: Record, v: Record): (r: GridRow)
    ensures Normalised(r)
    ensures r.id == Get(v, "id") && r.parentId == Get(p, "id")
    ensures r.name == (if Truthy(Get(v, "name")) then Get(v, "name") else Get(p, "name"))
    ensures r.kind == (if Truthy(Get(v, "type")) then Get(v, "type") else Str("variation"))
    ensures r.stock == (if Truthy(Get(v, "stock_quantity")) then Get(v, "stock_quantity") else Int(0))
    ensures r.salePrice == (if Truthy(Get(v, "sale_price")) then Get(v, "sale_price") else Str(""))
    ensures r.regularPrice == (if Truthy(Get(v, "regular_price")) then Get(v, "regular_price") else Str(""))
    ensures r.manageStock == Bool(Truthy(Get(v, "manage_stock")))
  {
    GridRow(
      update := Bool(true),
      id := Get(v, "id"),
      parentId := Get(p, "id"),
      name := Or(Get(v, "name"), Get(p, "name")),
      stock := Or(Get(v, "stock_quantity"), Int(0)),
      salePrice := Or(Get(v, "sale_price"), Str("")),
      regularPrice := Or(Get(v, "regular_price"), Str("")),
      kind := Or(Get(v, "type"), Str("variation")),
      manageStock := Bool(Truthy(Get(v, "manage_stock"))))
  }

  // ----- Pagination (app.py:96-128) -----

  /** One page of variations: a status code and the list of records. */
  type Page = Response<seq<Record>>

  /** The catalog's answer to a request for page `k` (pages count from 1). */
  function PageAt(pages: seq<Page>, k: nat): Page {
    if 1 <= k <= |pages| then pages[k - 1] else Response(200, [])
  }

  /** A page after which the loop asks for the next one: 200 and not empty. */
  predicate Continues(pg: Page) {
    pg.status == 200 && pg.body != []
  }

  /** How many pages the loop takes rows from: the pages before the first
      one that failed or came back empty. */
  function PagesRead(pages: seq<Page>): (k: nat)
    ensures k <= |pages|
    ensures forall j :: 0 <= j < k ==> Continues(pages[j])
    ensures k < |pages| ==> !Continues(pages[k])
  {
    if pages == [] || !Continues(pages[0]) then 0 else 1 + PagesRead(pages[1..])
  }

  /** The conditions at which the loop stops determine where it stops. */
  lemma PagesReadIsFirstStop(pages: seq<Page>, k: nat)
    requires k <= |pages|
    requires forall j :: 0 <= j < k ==> Continues(pages[j])
    requires k < |pages| ==> !Continues(pages[k])
    ensures PagesRead(pages) == k
  {
  }

  /** The rows of the variations on one page, in page order. */
  function RowsOfPage(p: Record, items: seq<Record>): seq<GridRow> {
    seq(|items|, i requires 0 <= i < |items| => VariationRow(p, items[i]))
  }

  /** The rows of the variations on the first `k` pages, page after page. */
  function VariationRows(p: Record, pages: seq<Page>, k: nat): seq<GridRow>
    requires k <= |pages|
  {
    if k == 0 then [] else VariationRows(p, pages, k - 1) + RowsOfPage(p, pages[k - 1].body)
  }

  /** How many variations the first `k` pages hold. */
  function ItemsBefore(pages: seq<Page>, k: nat): nat
    requires k <= |pages|
  {
    if k == 0 then 0 else ItemsBefore(pages, k - 1) + |pages[k - 1].body|
  }

  /** There is one variation row per item on the pages read. */
  lemma {:induction false} VariationRowsLength(p: Record, pages: seq<Page>, k: nat)
    requires k <= |pages|
    ensures |VariationRows(p, pages, k)| == ItemsBefore(pages, k)
  {
    if k > 0 {
      VariationRowsLength(p, pages, k - 1);
    }
  }

  /** The variation rows follow the pages read in page order, and each page
      in its own order: item `i` of page `j + 1` has position
      `ItemsBefore(pages, j) + i`. */
  lemma {:induction false} VariationRowAt(p: Record, pages: seq<Page>, k: nat, j: nat, i: nat)
    requires j < k <= |pages| && i < |pages[j].body|
    ensures ItemsBefore(pages, j) + i < |VariationRows(p, pages, k)|
    ensures VariationRows(p, pages, k)[ItemsBefore(pages, j) + i] == VariationRow(p, pages[j].body[i])
  {
    var prev := VariationRows(p, pages, k - 1);
    var last := RowsOfPage(p, pages[k - 1].body);
    VariationRowsLength(p, pages, k - 1);
    assert VariationRows(p, pages, k) == prev + last;
    if j == k - 1 {
      assert (prev + last)[|prev| + i] == last[i];
    } else {
      VariationRowAt(p, pages, k - 1, j, i);
      assert (prev + last)[ItemsBefore(pages, j) + i] == prev[ItemsBefore(pages, j) + i];
    }
  }

  /** Each variation row names the product as its parent and is normalised. */
  lemma {:induction false} VariationRowsNormalised(p: Record, pages: seq<Page>, k: nat)
    requires k <= |pages|
    ensures forall r :: r in VariationRows(p, pages, k) ==> Normalised(r) && r.parentId == Get(p, "id")
  {
    if k > 0 {
      VariationRowsNormalised(p, pages, k - 1);
    }
  }

  // ----- The whole fetch -----

  /** What the operator ends up with. */
  datatype FetchOutcome =
    | FetchFailed(status: int)   // "Error fetching product: ..."; no table
    | MissingId                  // `p['id']` raises KeyError: the run stops
    | Fetched(rows: seq<GridRow>, warning: Option<int>)
      // the table; `warning` holds the status of a failed page of variations

  /** The URL of the product read. */
  function ProductUrl(base: string, id: int): string {
    base + "/products/" + IntText(id)
  }

  /** The URL of the read of page `page` of the variations of the product whose id is `pid`. */
  function VariationsUrl(base: string, pid: Value, page: nat): string {
    base + "/products/" + Text(pid) + "/variations?per_page=100&page=" + IntText(page)
  }

  /** The URLs of pages 1 to `n`. */
  function PageUrls(base: string, pid: Value, n: nat): (urls: seq<string>)
    ensures |urls| == n
  {
    if n == 0 then [] else PageUrls(base, pid, n - 1) + [VariationsUrl(base, pid, n)]
  }

  /** The `j`-th URL read is that of page `j + 1`: no page is skipped or read twice. */
  lemma {:induction false} PageUrlAt(base: string, pid: Value, n: nat, j: nat)
    requires j < n
    ensures PageUrls(base, pid, n)[j] == VariationsUrl(base, pid, j + 1)
  {
    var prev := PageUrls(base, pid, n - 1);
    var last := VariationsUrl(base, pid, n);
    assert PageUrls(base, pid, n) == prev + [last];
    if j < n - 1 {
      PageUrlAt(base, pid, n - 1, j);
      assert (prev + [last])[j] == prev[j];
    } else {
      assert (prev + [last])[j] == last;
    }
  }

  /** The outcome of one fetch. */
  function Fetch(first: Response<Record>, pages: seq<Page>): FetchOutcome {
    if first.status != 200 then FetchFailed(first.status)
    else
      var p := first.body;
      if Get(p, "type") != Str("variable") then Fetched([BaseRow(p)], None)
      else if "id" !in p then MissingId
      else
        var k := PagesRead(pages);
        Fetched([BaseRow(p)] + VariationRows(p, pages, k), StopWarning(pages))
  }

  /** The URLs one fetch reads, in order. */
  function Reads(base: string, id: int, first: Response<Record>, pages: seq<Page>): seq<string> {
    var p := first.body;
    if first.status != 200 || Get(p, "type") != Str("variable") || "id" !in p then [ProductUrl(base, id)]
    else [ProductUrl(base, id)] + PageUrls(base, p["id"], PagesRead(pages) + 1)
  }

  /** The warning a fetch shows: the status of the page that stopped the
      loop, when that page failed. */
  function StopWarning(pages: seq<Page>): Option<int> {
    var k := PagesRead(pages);
    if k < |pages| && pages[k].status != 200 then Some(pages[k].status) else None
  }

  /** The pagination loop of a variable product: read pages 1, 2, ... until
      a page fails or comes back empty, appending a row per variation. Also
      returns the URLs it reads, in order. */
  method ReadVariations(base: string, p: Record, pages: seq<Page>)
    returns (rows: seq<GridRow>, warning: Option<int>, urls: seq<string>)
    requires "id" in p
    ensures rows == VariationRows(p, pages, PagesRead(pages))
    ensures warning == StopWarning(pages)
    ensures urls == PageUrls(base, p["id"], PagesRead(pages) + 1)
  {
    rows, warning, urls := [], None, [];
    var pid := p["id"];
    var page := 1;
    while true
      invariant 1 <= page <= |pages| + 1
      invariant forall j :: 0 <= j < page - 1 ==> Continues(pages[j])
      invariant rows == VariationRows(p, pages, page - 1)
      invariant urls == PageUrls(base, pid, page - 1)
      decreases |pages| + 1 - page
    {
      var reply := PageAt(pages, page);
      urls := urls + [VariationsUrl(base, pid, page)];
      if reply.status != 200 {
        StopAt(pages, page - 1);
        warning := Some(reply.status);
        break;
      }
      if reply.body == [] {
        StopAt(pages, page - 1);
        break;
      }
      assert reply == pages[page - 1];
      rows := AppendPage(p, rows, reply.body);
      page := page + 1;
    }
  }

  /** A loop that has read the first `k` pages and finds page `k + 1`
      failed or empty has read all it will read. */
  lemma StopAt(pages: seq<Page>, k: nat)
    requires k <= |pages|
    requires forall j :: 0 <= j < k ==> Continues(pages[j])
    requires !Continues(PageAt(pages, k + 1))
    ensures PagesRead(pages) == k
    ensures StopWarning(pages) == if PageAt(pages, k + 1).status != 200 then Some(PageAt(pages, k + 1).status) else None
  {
    PagesReadIsFirstStop(pages, k);
  }

  /** The inner loop over one page: a row per variation, appended in order. */
  method AppendPage(p: Record, rows: seq<GridRow>, items: seq<Record>) returns (out: seq<GridRow>)
    ensures out == rows + RowsOfPage(p, items)
  {
    out := rows;
    ghost var pageRows := RowsOfPage(p, items);
    for i := 0 to |items|
      invariant out == rows + pageRows[..i]
    {
      out := out + [VariationRow(p, items[i])];
      assert pageRows[..i + 1] == pageRows[..i] + [pageRows[i]];
    }
    assert pageRows[..|items|] == pageRows;
  }

  /** The fetch as the source runs it: read the product, and for a variable
      product run the pagination loop. Also returns the URLs it reads. */
  method FetchProduct(base: string, id: int, first: Response<Record>, pages: seq<Page>)
    returns (outcome: FetchOutcome, gets: seq<string>)
    ensures outcome == Fetch(first, pages)
    ensures gets == Reads(base, id, first, pages)
  {
    gets := [ProductUrl(base, id)];
    if first.status != 200 {
      return FetchFailed(first.status), gets;
    }
    var p := first.body;
    var allRows := [BaseRow(p)];
    var warning: Option<int> := None;
    if Get(p, "type") == Str("variable") {
      if "id" !in p {
        return MissingId, gets;
      }
      var vrows, urls;
      vrows, warning, urls := ReadVariations(base, p, pages);
      allRows := allRows + vrows;
      gets := gets + urls;
    }
    return Fetched(allRows, warning), gets;
  }

  // ----- Properties of a fetch -----

  /** The table of a fetched product: the product's row first, then one row
      per variation in page order; every row normalised, and every row after
      the first naming the product as its parent. */
  lemma FetchedTable(first: Response<Record>, pages: seq<Page>)
    requires Fetch(first, pages).Fetched?
    ensures var rows := Fetch(first, pages).rows;
            var p := first.body;
            && |rows| >= 1 && rows[0] == BaseRow(p)
            && (forall r :: r in rows ==> Normalised(r))
            && (forall j :: 1 <= j < |rows| ==> rows[j].parentId == Get(p, "id"))
  {
    var p := first.body;
    var rows := Fetch(first, pages).rows;
    if Get(p, "type") == Str("variable") {
      var vrows := VariationRows(p, pages, PagesRead(pages));
      VariationRowsNormalised(p, pages, PagesRead(pages));
      assert rows == [BaseRow(p)] + vrows;
      forall j | 1 <= j < |rows| ensures rows[j].parentId == Get(p, "id") {
        assert rows[j] == vrows[j - 1];
      }
    }
  }

  /** A variable product's table holds, at position `1 + ItemsBefore(pages, j) + i`,
      the row of item `i` of page `j + 1`, for every page before the stop. */
  lemma FetchedVariationsInPageOrder(first: Response<Record>, pages: seq<Page>, j: nat, i: nat)
    requires Fetch(first, pages).Fetched? && Get(first.body, "type") == Str("variable")
    requires j < PagesRead(pages) && i < |pages[j].body|
    ensures var rows := Fetch(first, pages).rows;
            1 + ItemsBefore(pages, j) + i < |rows|
            && rows[1 + ItemsBefore(pages, j) + i] == VariationRow(first.body, pages[j].body[i])
  {
    var k := PagesRead(pages);
    VariationRowAt(first.body, pages, k, j, i);
  }

  /** The loop reads one page more than it takes rows from, numbered 1, 2, 3, ...
      with no page skipped; a warning is shown exactly when it stopped at a
      failed page, and carries that page's status. */
  lemma FetchStopsAtFirstEmptyOrFailedPage(base: string, id: int, first: Response<Record>, pages: seq<Page>)
    requires Fetch(first, pages).Fetched? && Get(first.body, "type") == Str("variable")
    ensures var gets := Reads(base, id, first, pages);
            var k := PagesRead(pages);
            && |gets| == k + 2
            && (forall j :: 1 <= j < |gets| ==> gets[j] == VariationsUrl(base, first.body["id"], j))
            && (forall j :: 1 <= j <= k ==> Continues(PageAt(pages, j)))
            && !Continues(PageAt(pages, k + 1))
            && (Fetch(first, pages).warning.Some? <==> PageAt(pages, k + 1).status != 200)
            && (Fetch(first, pages).warning.Some? ==> Fetch(first, pages).warning.value == PageAt(pages, k + 1).status)
  {
    var p := first.body;
    var k := PagesRead(pages);
    assert "id" in p;
    assert Fetch(first, pages).warning == StopWarning(pages);
    ReadsInPageOrder(base, id, first, pages);
    StopConditions(pages);
  }

  /** The URLs of a variable product's fetch: the product, then pages 1 to
      one past the last page read. */
  lemma ReadsInPageOrder(base: string, id: int, first: Response<Record>, pages: seq<Page>)
    requires first.status == 200 && Get(first.body, "type") == Str("variable") && "id" in first.body
    ensures var gets := Reads(base, id, first, pages);
            && |gets| == PagesRead(pages) + 2
            && (forall j :: 1 <= j < |gets| ==> gets[j] == VariationsUrl(base, first.body["id"], j))
  {
    var gets := Reads(base, id, first, pages);
    var n := PagesRead(pages) + 1;
    var urls := PageUrls(base, first.body["id"], n);
    assert gets == [ProductUrl(base, id)] + urls;
    forall j | 1 <= j < |gets| ensures gets[j] == VariationsUrl(base, first.body["id"], j) {
      assert gets[j] == urls[j - 1];
      PageUrlAt(base, first.body["id"], n, j - 1);
    }
  }

  /** The pages read all continue the loop, the next one stops it, and the
      warning is that page's status exactly when it failed. */
  lemma StopConditions(pages: seq<Page>)
    ensures var k := PagesRead(pages);
            && (forall j :: 1 <= j <= k ==> Continues(PageAt(pages, j)))
            && !Continues(PageAt(pages, k + 1))
            && (StopWarning(pages).Some? <==> PageAt(pages, k + 1).status != 200)
            && (StopWarning(pages).Some? ==> StopWarning(pages).value == PageAt(pages, k + 1).status)
  {
    var k := PagesRead(pages);
    forall j | 1 <= j <= k ensures Continues(PageAt(pages, j)) {
      assert PageAt(pages, j) == pages[j - 1];
    }
  }
}

=== FILE: grid.dfy ===
/**
 * The editor's grid and the HTTP boundary: a JSON record as the catalog
 * returns it, one row of the product table, and a response reduced to its
 * status code and body.
 */
module Grid {
  import opened Cells

  /** A JSON object from the catalog, its fields as Python values. */
  type Record = map<string, Value>

  /** `r.get(key)`: the field, or None when the key is absent. */
  function Get(r: Record, key: string): Value {
    if key in r then r[key] else Null
  }

  /** Python's `v or fallback`. */
  function Or(v: Value, fallback: Value): Value {
    if Truthy(v) then v else fallback
  }

  /** One row of the product table, column by column ("Update?", "ID",
      "Parent ID", "Product Name", "Current Stock", "Sale Price",
      "Regular Price", "Type", "Manage Stock"). */
  datatype GridRow = GridRow(
    update: Value,
    id: Value,
    parentId: Value,
    name: Value,
    stock: Value,
    salePrice: Value,
    regularPrice: Value,
    kind: Value,
    manageStock: Value)

  /** An HTTP response: its status code and its decoded body. */
  datatype Response<T> = Response(status: int, body: T)
}

=== FILE: pynumbers.dfy ===
/**
 * Python's conversions between numbers and text, as the editor uses them:
 * `str(i)` for an int, `int(s)` and `float(s)` for a str, `int(x)` for a
 * float (truncation toward zero) and `str(x)` for a float.
 *
 * A float is modelled as an exact decimal `mantissa / 10^scale`; binary64
 * rounding and its range are not modelled.
 */
module PyNumbers {
  import opened Wrappers
  import opened PyStrings

  predicate IsDigit(c: char) {
    '0' <= c <= '9'
  }

  predicate AllDigits(t: string) {
    forall i :: 0 <= i < |t| ==> IsDigit(t[i])
  }

  function DigitValue(c: char): nat
    requires IsDigit(c)
  {
    c as int - '0' as int
  }

  function DigitChar(d: nat): (c: char)
    requires d < 10
    ensures IsDigit(c) && DigitValue(c) == d
  {
    ('0' as int + d) as char
  }

  function Pow10(k: nat): (p: nat)
    ensures p >= 1
  {
    if k == 0 then 1 else 10 * Pow10(k - 1)
  }

  /** The decimal digits of `n`, most significant first, without leading zeros. */
  function DigitsOf(n: nat): (s: string)
    ensures |s| >= 1 && AllDigits(s)
    ensures s[0] != '0' || n == 0
  {
    if n < 10 then [DigitChar(n)] else DigitsOf(n / 10) + [DigitChar(n % 10)]
  }

  /** `str(i)` for a Python int. */
  function IntText(i: int): (s: string)
    ensures |s| >= 1 && IsDigit(s[|s| - 1])
    ensures i < 0 <==> s[0] == '-'
    ensures i >= 0 ==> AllDigits(s)
    ensures forall k :: 0 <= k < |s| ==> IsDigit(s[k]) || (k == 0 && s[k] == '-')
    ensures i > 0 ==> s[0] != '0'
    ensures i < 0 ==> |s| >= 2 && s[1] != '0'
  {
    if i < 0 then "-" + DigitsOf(-i) else DigitsOf(i)
  }

  /** Python's `digitpart`: decimal digits, with single underscores allowed between two digits. */
  predicate IsDigitPart(t: string) {
    && |t| > 0 && IsDigit(t[|t| - 1])
    && var init := t[..|t| - 1];
       (init == [] || IsDigitPart(init) || (|init| >= 2 && init[|init| - 1] == '_' && IsDigitPart(init[..|init| - 1])))
  }

  /** The number the digits of `t` spell, underscores skipped. */
  function DigitsValue(t: string): nat {
    if t == [] then 0
    else if IsDigit(t[|t| - 1]) then DigitsValue(t[..|t| - 1]) * 10 + DigitValue(t[|t| - 1])
    else DigitsValue(t[..|t| - 1])
  }

  /** How many digits (not underscores) `t` holds. */
  function DigitCount(t: string): nat {
    if t == [] then 0
    else DigitCount(t[..|t| - 1]) + if IsDigit(t[|t| - 1]) then 1 else 0
  }

  /** The first position in `s` that holds one of `cs`, or `|s|` when there is none. */
  function IndexOfAny(s: string, cs: set<char>): (i: nat)
    ensures i <= |s|
    ensures forall j :: 0 <= j < i ==> s[j] !in cs
    ensures i < |s| ==> s[i] in cs
  {
    IndexFrom(s, cs, 0)
  }

  /** The first position from `k` on in `s` that holds one of `cs`, or `|s|`. */
  function IndexFrom(s: string, cs: set<char>, k: nat): (i: nat)
    requires k <= |s|
    ensures k <= i <= |s|
    ensures forall j :: k <= j < i ==> s[j] !in cs
    ensures i < |s| ==> s[i] in cs
    decreases |s| - k
  {
    if k == |s| || s[k] in cs then k else IndexFrom(s, cs, k + 1)
  }

  /** An optional sign and a digit part: the integer literal `int()` accepts
      once whitespace is stripped, and the exponent of a float literal. */
  function SignedDigits(t: string): Option<int> {
    if t != [] && (t[0] == '+' || t[0] == '-') then
      if IsDigitPart(t[1..]) then
        var v: int := DigitsValue(t[1..]);
        Some(if t[0] == '-' then -v else v)
      else None
    else if IsDigitPart(t) then Some(DigitsValue(t))
    else None
  }

  /** `int(s)` for a str `s`, base 10. `None` stands for the `ValueError` it raises. */
  function ParseInt(s: string): Option<int> {
    SignedDigits(NumberStrip(s))
  }

  /** The decimal `mantissa / 10^scale`. */
  datatype Decimal = Decimal(mantissa: int, scale: nat)

  /** `n` is `d` with its fraction dropped: same sign, no larger in magnitude,
      and less than one away. */
  predicate TowardZero(d: Decimal, n: int) {
    var p := Pow10(d.scale);
    if d.mantissa >= 0 then 0 <= n && n * p <= d.mantissa < (n + 1) * p
    else n <= 0 && (n - 1) * p < d.mantissa <= n * p
  }

  lemma DivBounds(m: nat, p: nat)
    requires p >= 1
    ensures 0 <= m / p
    ensures (m / p) * p <= m < (m / p + 1) * p
  {
    var q, r := m / p, m % p;
    assert m == q * p + r;
    assert (q + 1) * p == q * p + p;
  }

  /** `int(x)` for a finite float `x`. */
  function Truncate(d: Decimal): (n: int)
    ensures TowardZero(d, n)
  {
    var p := Pow10(d.scale);
    if d.mantissa >= 0 then
      var q := d.mantissa / p;
      DivBounds(d.mantissa, p);
      assert q * p <= d.mantissa < (q + 1) * p;
      q
    else
      var q := (-d.mantissa) / p;
      DivBounds(-d.mantissa, p);
      NegateBounds(-d.mantissa, q, p);
      assert (-q - 1) * p < d.mantissa <= -q * p;
      -q
  }

  lemma NegateBounds(m: int, q: int, p: int)
    requires q * p <= m < (q + 1) * p
    ensures (-q - 1) * p < -m <= -q * p
  {
    assert (-q - 1) * p == -((q + 1) * p);
    assert -q * p == -(q * p);
  }

  lemma MulLeq(a: int, b: int, p: nat)
    requires a <= b
    ensures a * p <= b * p
  {
  }

  /** `TowardZero` picks out a single integer, so `Truncate` is the only function meeting its contract. */
  lemma TowardZeroUnique(d: Decimal, a: int, b: int)
    requires TowardZero(d, a) && TowardZero(d, b)
    ensures a == b
  {
    var p := Pow10(d.scale);
    if a < b {
      if d.mantissa >= 0 { MulLeq(a + 1, b, p); } else { MulLeq(a, b - 1, p); }
    } else if b < a {
      if d.mantissa >= 0 { MulLeq(b + 1, a, p); } else { MulLeq(b, a - 1, p); }
    }
  }

  /** The mantissa of a float literal is valid: digits before the point,
      after it, or both (Python's `digitpart "." [digitpart] | "." digitpart | digitpart`). */
  predicate ValidMantissa(intPart: string, frac: string, hasDot: bool) {
    if hasDot then
      (intPart == [] || IsDigitPart(intPart)) && (frac == [] || IsDigitPart(frac))
      && (intPart != [] || frac != [])
    else IsDigitPart(intPart)
  }

  /** The value of a mantissa `digits[.digits]`. */
  function Mantissa(mant: string): Option<Decimal> {
    var dot := IndexOfAny(mant, {'.'});
    var intPart := mant[..dot];
    var frac := if dot < |mant| then mant[dot + 1..] else [];
    if ValidMantissa(intPart, frac, dot < |mant|) then
      Some(Decimal(DigitsValue(intPart + frac), DigitCount(frac)))
    else None
  }

  /** `d * 10^exp`. */
  function ScaleBy(d: Decimal, exp: int): Decimal {
    if exp >= 0 then Decimal(d.mantissa * Pow10(exp), d.scale)
    else Decimal(d.mantissa, d.scale - exp)
  }

  /** An unsigned float literal: a mantissa and an optional exponent. */
  function UnsignedFloat(body: string): Option<Decimal> {
    var e := IndexOfAny(body, {'e', 'E'});
    var exp := if e < |body| then SignedDigits(body[e + 1..]) else Some(0);
    match Mantissa(body[..e])
    case None => None
    case Some(m) => if exp.None? then None else Some(ScaleBy(m, exp.value))
  }

  /** `float(s)` for a str `s` whose value is finite. `None` stands both for the
      `ValueError` of malformed text and for the spellings of infinity and NaN,
      on which the `int()` that follows raises. */
  function ParseFloat(s: string): Option<Decimal> {
    SignedFloat(NumberStrip(s))
  }

  /** A float literal with an optional sign, once whitespace is stripped. */
  function SignedFloat(t: string): Option<Decimal> {
    if t != [] && (t[0] == '+' || t[0] == '-') then WithSign(t[0] == '-', UnsignedFloat(t[1..]))
    else UnsignedFloat(t)
  }

  /** The value `o`, negated when `neg` holds. */
  function WithSign(neg: bool, o: Option<Decimal>): Option<Decimal> {
    match o
    case None => None
    case Some(d) => Some(Signed(neg, d))
  }

  /** Drops trailing zero digits of the fraction; the value stays the same. */
  function Normalize(d: Decimal): (r: Decimal)
    ensures r.scale <= d.scale
    decreases d.scale
  {
    if d.scale > 0 && d.mantissa % 10 == 0 then Normalize(Decimal(d.mantissa / 10, d.scale - 1))
    else d
  }

  function Abs(i: int): nat {
    if i < 0 then -i else i
  }

  /** `k` characters: `s` with zeros in front. */
  function ZeroPad(s: string, k: nat): string {
    if |s| >= k then s else seq(k - |s|, _ => '0') + s
  }

  /** `str(x)` for a finite float `x` in fixed-point notation: the integer part,
      a point, and the fraction without trailing zeros (at least one digit). */
  function DecimalText(d: Decimal): string {
    var n := Normalize(d);
    var mag := Abs(n.mantissa);
    var p := Pow10(n.scale);
    DivBounds(mag, p);
    (if n.mantissa < 0 then "-" else "") + DigitsOf(mag / p) + "."
    + (if n.scale == 0 then "0" else ZeroPad(DigitsOf(mag % p), n.scale))
  }

  // ----- Round trips between the conversions -----

  lemma {:induction false} DigitsValueOfDigitsOf(n: nat)
    ensures DigitsValue(DigitsOf(n)) == n
  {
    var s := DigitsOf(n);
    if n < 10 {
      assert s[..|s| - 1] == [];
    } else {
      assert s[..|s| - 1] == DigitsOf(n / 10);
      DigitsValueOfDigitsOf(n / 10);
    }
  }

  lemma {:induction false} DigitCountAllDigits(t: string)
    requires AllDigits(t)
    ensures DigitCount(t) == |t|
  {
    if t != [] {
      DigitCountAllDigits(t[..|t| - 1]);
    }
  }

  /** Digits written after other digits shift them left by as many places. */
  lemma {:induction false} DigitsValueAppend(a: string, b: string)
    ensures DigitsValue(a + b) == DigitsValue(a) * Pow10(DigitCount(b)) + DigitsValue(b)
  {
    if b == [] {
      assert a + b == a;
    } else {
      var b' := b[..|b| - 1];
      assert (a + b)[..|a + b| - 1] == a + b';
      DigitsValueAppend(a, b');
      if IsDigit(b[|b| - 1]) {
        var x, p, y, d := DigitsValue(a), Pow10(DigitCount(b')), DigitsValue(b'), DigitValue(b[|b| - 1]);
        assert DigitsValue(a + b) == DigitsValue(a + b') * 10 + d;
        assert DigitsValue(b) == y * 10 + d;
        assert Pow10(DigitCount(b)) == p * 10;
        ShiftByDigit(x, p, y, d);
      }
    }
  }

  lemma ShiftByDigit(x: int, p: int, y: int, d: int)
    ensures (x * p + y) * 10 + d == x * (p * 10) + (y * 10 + d)
  {
  }

  /** A digit string spells a number below ten to the power of its length. */
  lemma {:induction false} DigitsValueBound(t: string)
    ensures DigitsValue(t) < Pow10(DigitCount(t))
  {
    if t != [] {
      var t' := t[..|t| - 1];
      DigitsValueBound(t');
      if IsDigit(t[|t| - 1]) {
        assert DigitsValue(t') + 1 <= Pow10(DigitCount(t'));
        MulLeq(DigitsValue(t') + 1, Pow10(DigitCount(t')), 10);
      }
    }
  }

  /** `str(i)` never starts or ends with whitespace. */
  lemma IntTextTrimmed(i: int)
    ensures Trimmed(IntText(i))
  {
    var s := IntText(i);
    assert IsDigit(s[0]) || s[0] == '-';
  }

  /** The digit part, optionally signed, of `str(i)` reads back as `i`. */
  lemma SignedDigitsOfIntText(i: int)
    ensures SignedDigits(IntText(i)) == Some(i)
  {
    var s := IntText(i);
    if i < 0 {
      assert s[1..] == DigitsOf(-i);
      AllDigitsIsDigitPart(s[1..]);
      DigitsValueOfDigitsOf(-i);
    } else {
      AllDigitsIsDigitPart(s);
      DigitsValueOfDigitsOf(i);
    }
  }

  /** `int(str(i)) == i`. */
  lemma ParseIntOfIntText(i: int)
    ensures ParseInt(IntText(i)) == Some(i)
  {
    IntTextTrimmed(i);
    StripTrimmed(IntText(i));
    SignedDigitsOfIntText(i);
  }

  /** Stripping before `int()` matters: `int()` rejects a number behind the
      separator U+001F, which `strip()` removes. */
  lemma ParseIntAfterStrip()
    ensures ParseInt("\U{1F}5") == None
    ensures ParseInt(Strip("\U{1F}5")) == Some(5)
  {
    NumberStripKeepsSeparators();
    assert NumberStrip("5") == "5" by { StripTrimmed("5"); }
    assert DigitsValue("5") == 5 by { assert "5"[..0] == []; }
  }

  /** The first position of a character of `cs` in `a + [c] + b`, when `a` has
      none and `c` is one, is right after `a`. */
  lemma IndexOfAnyAt(a: string, c: char, b: string, cs: set<char>)
    requires forall i :: 0 <= i < |a| ==> a[i] !in cs
    requires c in cs
    ensures IndexOfAny(a + [c] + b, cs) == |a|
  {
    var s := a + [c] + b;
    forall i | 0 <= i < |a| ensures s[i] !in cs {
      assert s[i] == a[i];
    }
    assert s[|a|] == c;
  }

  /** No character of `cs` in `s`: the search runs to the end. */
  lemma IndexOfAnyAbsent(s: string, cs: set<char>)
    requires forall i :: 0 <= i < |s| ==> s[i] !in cs
    ensures IndexOfAny(s, cs) == |s|
  {
  }

  lemma AllDigitsIsDigitPart(t: string)
    requires t != [] && AllDigits(t)
    ensures IsDigitPart(t)
  {
    if |t| > 1 {
      AllDigitsIsDigitPart(t[..|t| - 1]);
    }
  }

  /** A mantissa without a point is its digits. */
  lemma MantissaOfDigits(n: nat)
    ensures Mantissa(DigitsOf(n)) == Some(Decimal(n, 0))
  {
    var d := DigitsOf(n);
    assert forall i :: 0 <= i < |d| ==> d[i] !in {'.'};
    IndexOfAnyAbsent(d, {'.'});
    assert d[..|d|] == d && d + [] == d;
    AllDigitsIsDigitPart(d);
    assert ValidMantissa(d, [], false);
    DigitsValueOfDigitsOf(n);
    assert DigitCount([]) == 0;
  }

  /** A mantissa `digits.digits` is the decimal it spells. */
  lemma MantissaOfFraction(n: nat, f: string, m: int)
    requires f != [] && AllDigits(f)
    requires m == n * Pow10(|f|) + DigitsValue(f)
    ensures Mantissa(DigitsOf(n) + "." + f) == Some(Decimal(m, |f|))
  {
    var d := DigitsOf(n);
    var body := d + "." + f;
    IndexOfAnyAt(d, '.', f, {'.'});
    assert body[..|d|] == d && body[|d| + 1..] == f;
    AllDigitsIsDigitPart(d);
    AllDigitsIsDigitPart(f);
    MantissaWithPoint(body, d, f);
    DigitsValueOfJoined(n, f, m);
  }

  /** The digits of `n` followed by those of `f` spell `n * 10^|f| + f`. */
  lemma DigitsValueOfJoined(n: nat, f: string, m: int)
    requires AllDigits(f)
    requires m == n * Pow10(|f|) + DigitsValue(f)
    ensures DigitsValue(DigitsOf(n) + f) == m && DigitCount(f) == |f|
  {
    DigitsValueOfDigitsOf(n);
    DigitCountAllDigits(f);
    DigitsValueAppend(DigitsOf(n), f);
  }

  /** A mantissa whose first point follows `d` and precedes `f`. */
  lemma MantissaWithPoint(body: string, d: string, f: string)
    requires IndexOfAny(body, {'.'}) == |d| < |body|
    requires body[..|d|] == d && body[|d| + 1..] == f
    requires ValidMantissa(d, f, true)
    ensures Mantissa(body) == Some(Decimal(DigitsValue(d + f), DigitCount(f)))
  {
  }

  /** A float literal without an exponent is its mantissa. */
  lemma UnsignedFloatWithoutExponent(body: string)
    requires forall i :: 0 <= i < |body| ==> IsDigit(body[i]) || body[i] == '.'
    ensures UnsignedFloat(body) == Mantissa(body)
  {
    IndexOfAnyAbsent(body, {'e', 'E'});
    assert body[..|body|] == body;
  }

  /** `d`, negated when `neg` holds. */
  function Signed(neg: bool, d: Decimal): Decimal {
    if neg then Decimal(-d.mantissa, d.scale) else d
  }

  lemma SignedFloatOfSigned(neg: bool, body: string)
    requires body != [] && IsDigit(body[0])
    ensures SignedFloat((if neg then "-" else "") + body) == WithSign(neg, UnsignedFloat(body))
  {
    var t := (if neg then "-" else "") + body;
    if neg {
      assert t[0] == '-' && t[1..] == body;
    } else {
      assert t == body;
      assert SignedFloat(body) == UnsignedFloat(body);
    }
  }

  /** `float()` of a literal without surrounding whitespace that starts with
      a digit, or with `-` and a digit: the unsigned value, negated after `-`. */
  lemma ParseFloatOfSigned(neg: bool, body: string)
    requires body != [] && IsDigit(body[0]) && !IsSpace(body[|body| - 1])
    ensures ParseFloat((if neg then "-" else "") + body) == WithSign(neg, UnsignedFloat(body))
  {
    var s := (if neg then "-" else "") + body;
    assert s[0] == '-' || s[0] == body[0];
    assert s[|s| - 1] == body[|body| - 1];
    StripTrimmed(s);
    SignedFloatOfSigned(neg, body);
  }

  /** `float(str(i))` is exactly `i`. */
  lemma ParseFloatOfIntText(i: int)
    ensures ParseFloat(IntText(i)) == Some(Decimal(i, 0))
  {
    var n: nat := if i < 0 then -i else i;
    var body := DigitsOf(n);
    UnsignedFloatOfDigits(n);
    assert IntText(i) == (if i < 0 then "-" else "") + body;
    ParseFloatOfSigned(i < 0, body);
    assert Signed(i < 0, Decimal(n, 0)) == Decimal(i, 0);
  }

  /** A literal of digits alone is the integer they spell. */
  lemma UnsignedFloatOfDigits(n: nat)
    ensures UnsignedFloat(DigitsOf(n)) == Some(Decimal(n, 0))
  {
    UnsignedFloatWithoutExponent(DigitsOf(n));
    MantissaOfDigits(n);
  }

  /** `float()` of a literal `[-]digits.digits` is the exact decimal it spells:
      `m / 10^|f|` with `m` the digits of both parts. */
  lemma ParseFloatOfFractionText(neg: bool, n: nat, f: string, m: int)
    requires f != [] && AllDigits(f)
    requires m == n * Pow10(|f|) + DigitsValue(f)
    ensures ParseFloat((if neg then "-" else "") + (DigitsOf(n) + "." + f))
            == Some(Signed(neg, Decimal(m, |f|)))
  {
    var body := DigitsOf(n) + "." + f;
    assert body[0] == DigitsOf(n)[0];
    assert body[|body| - 1] == f[|f| - 1];
    var u := UnsignedFloat(body);
    assert u == Some(Decimal(m, |f|)) by {
      UnsignedFloatOfFraction(n, f, m);
    }
    ParseFloatOfSigned(neg, body);
    assert WithSign(neg, u) == Some(Signed(neg, Decimal(m, |f|)));
  }

  lemma UnsignedFloatOfFraction(n: nat, f: string, m: int)
    requires f != [] && AllDigits(f)
    requires m == n * Pow10(|f|) + DigitsValue(f)
    ensures UnsignedFloat(DigitsOf(n) + "." + f) == Some(Decimal(m, |f|))
  {
    FractionBody(DigitsOf(n), f);
    UnsignedFloatWithoutExponent(DigitsOf(n) + "." + f);
    MantissaOfFraction(n, f, m);
  }

  lemma FractionBody(d: string, f: string)
    requires d != [] && AllDigits(d) && f != [] && AllDigits(f)
    ensures var body := d + "." + f;
            IsDigit(body[0]) && IsDigit(body[|body| - 1])
            && forall i :: 0 <= i < |body| ==> IsDigit(body[i]) || body[i] == '.'
  {
    var body := d + "." + f;
    assert body[0] == d[0];
    assert body[|body| - 1] == f[|f| - 1];
    forall i | 0 <= i < |body| ensures IsDigit(body[i]) || body[i] == '.' {
      if i < |d| { assert body[i] == d[i]; }
      else if i > |d| { assert body[i] == f[i - |d| - 1]; }
    }
  }

  /** An integral decimal truncates to itself. */
  lemma TruncateIntegral(i: int)
    ensures Truncate(Decimal(i, 0)) == i
  {
    assert Pow10(0) == 1;
    assert TowardZero(Decimal(i, 0), i);
    TowardZeroUnique(Decimal(i, 0), i, Truncate(Decimal(i, 0)));
  }

  /** Truncation drops exactly the fraction digits, toward zero on either
      side: `int(n.f) == n` and `int(-n.f) == -n`, where `m` holds the digits of
      `n` and of the fraction `v` of `k` digits. */
  lemma TruncateDropsFraction(neg: bool, n: nat, v: nat, k: nat, m: int)
    requires v < Pow10(k)
    requires m == n * Pow10(k) + v
    ensures Truncate(Signed(neg, Decimal(m, k))) == if neg then -(n as int) else n
  {
    var d := Signed(neg, Decimal(m, k));
    var want: int := if neg then -(n as int) else n;
    FractionBounds(n, v, Pow10(k), m);
    assert TowardZero(d, want);
    TowardZeroUnique(d, want, Truncate(d));
  }

  /** `n * p + v` with `v` below `p` lies in `[n * p, (n + 1) * p)`, and its
      negation in `((-n - 1) * p, -n * p]`. */
  lemma FractionBounds(n: nat, v: nat, p: nat, m: int)
    requires v < p
    requires m == n * p + v
    ensures n * p <= m < (n + 1) * p
    ensures (-(n as int) - 1) * p < -m <= -(n as int) * p
  {
    assert (n + 1) * p == n * p + p;
    assert (-(n as int) - 1) * p == -(n * p) - p;
    assert -(n as int) * p == -(n * p);
  }
}

=== FILE: pystrings.dfy ===
/**
 * The parts of Python's `str` that the editor relies on: `str.isspace`,
 * `str.strip()` with no argument, the whitespace `int()` and `float()` skip
 * around a number, and the test `s.lower() == "nan"`.
 */
module PyStrings {

  /** The characters for which Python's `str.isspace()` is true
      (bidirectional class WS, B or S, or general category Zs). */
  predicate IsSpace(c: char) {
    var n := c as int;
    (0x09 <= n <= 0x0D) || (0x1C <= n <= 0x20) || n == 0x85 || n == 0xA0 || n == 0x1680
    || (0x2000 <= n <= 0x200A) || n == 0x2028 || n == 0x2029 || n == 0x202F
    || n == 0x205F || n == 0x3000
  }

  /** Which whitespace a strip removes. `str.strip()` removes every
      `isspace()` character. `int()` and `float()` of a str skip the ASCII
      whitespace " \t\n\v\f\r" and non-ASCII whitespace, but not the ASCII
      separators U+001C..U+001F. */
  datatype Blanks = StrBlanks | NumberBlanks

  predicate IsBlank(c: char, b: Blanks) {
    IsSpace(c) && (b == NumberBlanks ==> !(0x1C <= c as int <= 0x1F))
  }

  predicate AllSpace(s: string) {
    forall i :: 0 <= i < |s| ==> IsSpace(s[i])
  }

  /** No whitespace at either end: what `strip()` leaves behind. */
  predicate Trimmed(s: string) {
    s == [] || (!IsSpace(s[0]) && !IsSpace(s[|s| - 1]))
  }

  /** `s.lstrip()`: the suffix of `s` left after dropping its leading whitespace. */
  function TrimStart(s: string): (r: string)
    ensures |r| <= |s| && r == s[|s| - |r|..]
    ensures AllSpace(s[..|s| - |r|])
    ensures r == [] || !IsSpace(r[0])
  {
    s[SpaceRunFrom(s, 0, StrBlanks)..]
  }

  /** The end of the run of `b` whitespace in `s` that starts at `k`. */
  function SpaceRunFrom(s: string, k: nat, b: Blanks): (i: nat)
    requires k <= |s|
    ensures k <= i <= |s|
    ensures forall j :: k <= j < i ==> IsBlank(s[j], b)
    ensures i < |s| ==> !IsBlank(s[i], b)
    decreases |s| - k
  {
    if k == |s| || !IsBlank(s[k], b) then k else SpaceRunFrom(s, k + 1, b)
  }

  /** `s.rstrip()`: the prefix of `s` left after dropping its trailing whitespace. */
  function TrimEnd(s: string): (r: string)
    ensures |r| <= |s| && r == s[..|r|]
    ensures AllSpace(s[|r|..])
    ensures r == [] || !IsSpace(r[|r| - 1])
  {
    s[..SpaceRunBefore(s, |s|, StrBlanks)]
  }

  /** The start of the run of `b` whitespace in `s` that ends just before `k`. */
  function SpaceRunBefore(s: string, k: nat, b: Blanks): (i: nat)
    requires k <= |s|
    ensures i <= k
    ensures forall j :: i <= j < k ==> IsBlank(s[j], b)
    ensures i > 0 ==> !IsBlank(s[i - 1], b)
  {
    if k == 0 || !IsBlank(s[k - 1], b) then k else SpaceRunBefore(s, k - 1, b)
  }

  /** `s.strip()`. */
  function Strip(s: string): (r: string)
    ensures |r| <= |s| && Trimmed(r)
  {
    var t := TrimStart(s);
    var r := TrimEnd(t);
    assert r == [] || r[0] == t[0];
    r
  }

  /** The text `int()` and `float()` parse in a str: what is left once their
      whitespace is skipped at both ends. Unlike `strip()`, they keep the
      separators U+001C..U+001F. */
  function NumberStrip(s: string): (r: string)
    ensures |r| <= |s|
    ensures r == [] || (!IsBlank(r[0], NumberBlanks) && !IsBlank(r[|r| - 1], NumberBlanks))
  {
    var t := s[SpaceRunFrom(s, 0, NumberBlanks)..];
    var r := t[..SpaceRunBefore(t, |t|, NumberBlanks)];
    assert r == [] || r[0] == t[0];
    r
  }

  /** What `strip()` returns is a piece of its argument, cut out between two
      runs of whitespace, and carries no whitespace at either end. */
  lemma StripIsTrimmedInfix(s: string)
    ensures Trimmed(Strip(s))
    ensures exists i, j :: 0 <= i <= j <= |s| && Strip(s) == s[i..j]
                           && AllSpace(s[..i]) && AllSpace(s[j..])
  {
    var t := TrimStart(s);
    var r := TrimEnd(t);
    var i := |s| - |t|;
    var j := i + |r|;
    assert r == s[i..j];
    assert s[..i] == s[..|s| - |t|];
    assert s[j..] == t[|r|..];
    if r != [] {
      assert r[0] == t[0];
    }
  }

  /** A string is blank after `strip()` exactly when every character is whitespace. */
  lemma StripEmptyIffAllSpace(s: string)
    ensures Strip(s) == [] <==> AllSpace(s)
  {
    var t := TrimStart(s);
    if t != [] {
      assert IsSpace(s[|s| - |t|]) <==> IsSpace(t[0]);
    }
  }

  /** Neither `strip()` nor the stripping of `int()` and `float()` changes a
      string that has no whitespace at its ends. */
  lemma StripTrimmed(s: string)
    requires Trimmed(s)
    ensures Strip(s) == s
    ensures NumberStrip(s) == s
  {
    assert TrimStart(s) == s;
    assert SpaceRunFrom(s, 0, NumberBlanks) == 0;
    assert s[0..] == s;
  }

  /** The two strips differ: `strip()` removes a leading U+001F, while
      `int()` and `float()` keep it, and so reject the text. */
  lemma NumberStripKeepsSeparators()
    ensures Strip("\U{1F}5") == "5"
    ensures NumberStrip("\U{1F}5") == "\U{1F}5"
  {
    var s := "\U{1F}5";
    assert SpaceRunFrom(s, 0, StrBlanks) == 1;
    assert s[1..] == "5";
    assert SpaceRunFrom(s, 0, NumberBlanks) == 0;
    assert s[0..] == s;
  }

  /** Stripping twice is stripping once. */
  lemma StripIdempotent(s: string)
    ensures Strip(Strip(s)) == Strip(s)
  {
    StripIsTrimmedInfix(s);
    StripTrimmed(Strip(s));
  }

  /** Leading whitespace in front of a string that starts with none is what `lstrip()` removes. */
  lemma {:induction false} TrimStartPadding(pad: string, t: string)
    requires AllSpace(pad)
    requires t == [] || !IsSpace(t[0])
    ensures TrimStart(pad + t) == t
  {
    if pad != [] {
      assert (pad + t)[1..] == pad[1..] + t;
      TrimStartPadding(pad[1..], t);
    } else {
      assert pad + t == t;
    }
  }

  /** Trailing whitespace after a string that ends with none is what `rstrip()` removes. */
  lemma {:induction false} TrimEndPadding(t: string, pad: string)
    requires AllSpace(pad)
    requires t == [] || !IsSpace(t[|t| - 1])
    ensures TrimEnd(t + pad) == t
  {
    if pad != [] {
      assert (t + pad)[..|t + pad| - 1] == t + pad[..|pad| - 1];
      TrimEndPadding(t, pad[..|pad| - 1]);
    } else {
      assert t + pad == t;
    }
  }

  /** `strip()` of a string with no whitespace at its ends, padded with
      whitespace on both sides, is that string. */
  lemma StripPadded(before: string, t: string, after: string)
    requires AllSpace(before) && AllSpace(after) && t != [] && Trimmed(t)
    ensures Strip(before + t + after) == t
  {
    assert before + t + after == before + (t + after);
    assert (t + after)[0] == t[0];
    TrimStartPadding(before, t + after);
    TrimEndPadding(t, after);
  }

  /** `s.lower() == "nan"`. Only 'N' and 'n' lower-case to "n", and only 'A'
      and 'a' to "a", and no other character lower-cases to a string that
      could complete "nan", so the test is this one. */
  predicate IsNanText(s: string) {
    |s| == 3 && (s[0] == 'n' || s[0] == 'N') && (s[1] == 'a' || s[1] == 'A')
    && (s[2] == 'n' || s[2] == 'N')
  }
}

=== FILE: update.dfy ===
/**
 * Writing the edited table back (app.py:152-197): the rows whose "Update?"
 * box is ticked are sent, one PUT each and in table order, to the product or
 * variation they stand for; the replies are counted as updated or failed.
 *
 * The catalog's replies are a parameter: `respond(k, request)` is the reply
 * to the `k`-th request of the batch (counting from 0). A row whose id (or
 * parent id) `int()` rejects raises out of the loop: the batch stops there,
 * after the requests already sent, and shows no summary.
 */
module CatalogUpdate {
  import opened Wrappers
  import opened PyStrings
  import opened PyNumbers
  import opened Cells
  import opened Grid
  import opened CatalogFetch

  // ----- The request body (app.py:162-176) -----

  /** The JSON body of one update. */
  type Body = map<string, Value>

  /** The body sent for a row: the coerced stock, with stock management
      switched on, when there is one; and always the sale price, an empty
      one clearing it. */
  function Payload(row: GridRow): (m: Body)
    ensures "stock_quantity" in m <==> CoerceIntOrNone(row.stock).Some?
    ensures "stock_quantity" in m ==> m["stock_quantity"] == Int(CoerceIntOrNone(row.stock).value)
    ensures "manage_stock" in m <==> "stock_quantity" in m
    ensures "manage_stock" in m ==> m["manage_stock"] == Bool(true)
    ensures "sale_price" in m && m["sale_price"] == Str(CoercePriceOrEmpty(row.salePrice))
    ensures m.Keys <= {"manage_stock", "stock_quantity", "sale_price"}
  {
    var stocked: Body := match CoerceIntOrNone(row.stock)
      case None => map[]
      case Some(n) => map["manage_stock" := Bool(true), "stock_quantity" := Int(n)];
    stocked["sale_price" := Str(CoercePriceOrEmpty(row.salePrice))]
  }

  /** The body as the source builds it, key by key. */
  method BuildPayload(row: GridRow) returns (body: Body)
    ensures body == Payload(row)
  {
    var stockVal := CoerceIntOrNone(row.stock);
    var salePriceVal := CoercePriceOrEmpty(row.salePrice);
    var manageStockVal := Truthy(row.manageStock);
    body := map[];
    if stockVal.Some? {
      body := body["manage_stock" := Bool(if manageStockVal || stockVal.Some? then true else false)];
      body := body["stock_quantity" := Int(stockVal.value)];
    }
    ghost var stocked := body;
    if salePriceVal != "" {
      body := body["sale_price" := Str(salePriceVal)];
    } else {
      body := body["sale_price" := Str("")];
    }
    assert body == stocked["sale_price" := Str(salePriceVal)];
  }

  /** The "Manage Stock" box has no effect on what is sent: a stock is always
      sent with stock management on, whatever the box says. */
  lemma PayloadIgnoresManageStock(row: GridRow, v: Value)
    ensures Payload(row.(manageStock := v)) == Payload(row)
  {
  }

  /** A whole-number stock is sent as itself, with stock management on. */
  lemma PayloadOfIntStock(row: GridRow, n: int)
    requires row.stock == Int(n)
    ensures Payload(row)["stock_quantity"] == Int(n)
    ensures Payload(row)["manage_stock"] == Bool(true)
  {
    TruncateIntegral(n);
  }

  /** A sale price without surrounding whitespace that is not a spelling of
      "nan" is sent unchanged; in particular an untouched price from the
      catalog goes back as it came. */
  lemma PayloadKeepsSalePrice(row: GridRow, s: string)
    requires row.salePrice == Str(s) && Trimmed(s) && !IsNanText(s)
    ensures Payload(row)["sale_price"] == Str(s)
  {
    CoercePriceFixedPoints(s);
  }

  // ----- The endpoint (app.py:178-184) -----

  /** What a request updates: a product, or a variation of a product. */
  datatype Target = ProductTarget(id: int) | VariationTarget(parent: int, id: int)

  /** `pd.isna(parent_id) or parent_id in (None, "")`: the row is a product of its own. */
  predicate IsProductLevel(parent: Value) {
    parent.Null? || parent.NaN? || parent == Str("")
  }

  /** Where a row is sent; `None` when `int()` raises on its id or, for a
      variation, on its parent id. */
  function TargetOf(row: GridRow): (t: Option<Target>)
    ensures IsProductLevel(row.parentId) ==>
              t == (if ToInt(row.id).Some? then Some(ProductTarget(ToInt(row.id).value)) else None)
    ensures !IsProductLevel(row.parentId) ==>
              (t.Some? <==> ToInt(row.parentId).Some? && ToInt(row.id).Some?)
    ensures !IsProductLevel(row.parentId) && t.Some? ==>
              t.value == VariationTarget(ToInt(row.parentId).value, ToInt(row.id).value)
  {
    if IsProductLevel(row.parentId) then
      match ToInt(row.id)
      case None => None
      case Some(id) => Some(ProductTarget(id))
    else
      match ToInt(row.parentId)
      case None => None
      case Some(parent) =>
        match ToInt(row.id)
        case None => None
        case Some(id) => Some(VariationTarget(parent, id))
  }

  /** What follows "/products/" in the URL of a target. */
  function TargetPath(t: Target): string {
    match t
    case ProductTarget(id) => IntText(id)
    case VariationTarget(parent, id) => IntText(parent) + "/variations/" + IntText(id)
  }

  /** The URL of a target under the API root `base`. */
  function Url(base: string, t: Target): string {
    base + "/products/" + TargetPath(t)
  }

  /** An integer written as `str()` writes it, and nothing else. */
  function CanonicalInt(s: string): (r: Option<int>)
    ensures r.Some? ==> IntText(r.value) == s
  {
    match ParseInt(s)
    case None => None
    case Some(i) => if IntText(i) == s then Some(i) else None
  }

  /** Reads a target back from what follows "/products/" in its URL. */
  function RoutePath(path: string): Option<Target> {
    var k := IndexOfAny(path, {'/'});
    if k == |path| then
      match CanonicalInt(path)
      case None => None
      case Some(id) => Some(ProductTarget(id))
    else
      var tail := path[k..];
      if |tail| < 12 || tail[..12] != "/variations/" then None
      else
        match CanonicalInt(path[..k])
        case None => None
        case Some(parent) =>
          match CanonicalInt(tail[12..])
          case None => None
          case Some(id) => Some(VariationTarget(parent, id))
  }

  /** Reads a target back from a URL under `base`; `None` for any URL that
      is not the URL of a target. */
  function Route(base: string, url: string): Option<Target> {
    var head := base + "/products/";
    if |url| < |head| || url[..|head|] != head then None
    else RoutePath(url[|head|..])
  }

  lemma NoSlashInIntText(i: int)
    ensures forall j :: 0 <= j < |IntText(i)| ==> IntText(i)[j] !in {'/'}
  {
    var s := IntText(i);
    forall j | 0 <= j < |s| ensures s[j] !in {'/'} {
      assert IsDigit(s[j]) || s[j] == '-';
    }
  }

  lemma CanonicalIntOfIntText(i: int)
    ensures CanonicalInt(IntText(i)) == Some(i)
  {
    ParseIntOfIntText(i);
  }

  lemma RoutePathOfProduct(id: int)
    ensures RoutePath(IntText(id)) == Some(ProductTarget(id))
  {
    NoSlashInIntText(id);
    IndexOfAnyAbsent(IntText(id), {'/'});
    CanonicalIntOfIntText(id);
  }

  lemma RoutePathOfVariation(parent: int, id: int)
    ensures RoutePath(IntText(parent) + "/variations/" + IntText(id)) == Some(VariationTarget(parent, id))
  {
    NoSlashInIntText(parent);
    CanonicalIntOfIntText(parent);
    CanonicalIntOfIntText(id);
    RoutePathOfParts(IntText(parent), IntText(id), parent, id);
  }

  /** A path `a/variations/b` with no slash in `a` reads back as the
      variation `b` of product `a`, when both are canonical integers. */
  lemma RoutePathOfParts(a: string, b: string, parent: int, id: int)
    requires forall j :: 0 <= j < |a| ==> a[j] !in {'/'}
    requires CanonicalInt(a) == Some(parent) && CanonicalInt(b) == Some(id)
    ensures RoutePath(a + "/variations/" + b) == Some(VariationTarget(parent, id))
  {
    VariationPathParts(a, b);
  }

  /** The pieces `RoutePath` cuts `a/variations/b` into, when `a` has no slash. */
  lemma VariationPathParts(a: string, b: string)
    requires forall j :: 0 <= j < |a| ==> a[j] !in {'/'}
    ensures var path := a + "/variations/" + b;
            && IndexOfAny(path, {'/'}) == |a|
            && path[..|a|] == a
            && |path[|a|..]| >= 12
            && path[|a|..][..12] == "/variations/"
            && path[|a|..][12..] == b
  {
    var path := a + "/variations/" + b;
    assert path == a + ['/'] + ("variations/" + b);
    IndexOfAnyAt(a, '/', "variations/" + b, {'/'});
    assert path[|a|..] == "/variations/" + b;
  }

  /** Every target's URL reads back as that target. */
  lemma RouteOfUrl(base: string, t: Target)
    ensures Route(base, Url(base, t)) == Some(t)
  {
    var head := base + "/products/";
    var url := Url(base, t);
    assert url[..|head|] == head && url[|head|..] == TargetPath(t);
    match t
    case ProductTarget(id) => RoutePathOfProduct(id);
    case VariationTarget(parent, id) => RoutePathOfVariation(parent, id);
  }

  lemma SplitAfter(s: string, p: string)
    requires |p| <= |s| && s[..|p|] == p
    ensures s == p + s[|p|..]
  {
  }

  lemma SplitAround(s: string, k: nat, sep: string)
    requires k + |sep| <= |s| && s[k..][..|sep|] == sep
    ensures s == s[..k] + sep + s[k..][|sep|..]
  {
    SplitAfter(s[k..], sep);
    assert s == s[..k] + s[k..];
  }

  lemma RoutePathSound(path: string)
    requires RoutePath(path).Some?
    ensures TargetPath(RoutePath(path).value) == path
  {
    var k := IndexOfAny(path, {'/'});
    if k < |path| {
      SplitAround(path, k, "/variations/");
    }
  }

  /** A URL that reads back as a target is exactly that target's URL. */
  lemma UrlOfRoute(base: string, url: string)
    requires Route(base, url).Some?
    ensures Url(base, Route(base, url).value) == url
  {
    var head := base + "/products/";
    SplitAfter(url, head);
    RoutePathSound(url[|head|..]);
  }

  /** Different targets have different URLs. */
  lemma UrlInjective(base: string, t: Target, u: Target)
    requires Url(base, t) == Url(base, u)
    ensures t == u
  {
    RouteOfUrl(base, t);
    RouteOfUrl(base, u);
  }

  // ----- One update -----

  /** One PUT: its URL and its JSON body. */
  datatype Request = Request(url: string, body: Body)

  /** The request for a row, or `None` when computing its URL raises. */
  function RequestFor(base: string, row: GridRow): Option<Request> {
    match TargetOf(row)
    case None => None
    case Some(t) => Some(Request(Url(base, t), Payload(row)))
  }

  /** A request is sent exactly for a row whose target can be computed; its
      URL reads back as that target and its body is the row's payload. */
  lemma RequestForRoutes(base: string, row: GridRow)
    ensures RequestFor(base, row).Some? <==> TargetOf(row).Some?
    ensures RequestFor(base, row).Some? ==>
              Route(base, RequestFor(base, row).value.url) == TargetOf(row)
              && RequestFor(base, row).value.body == Payload(row)
  {
    if TargetOf(row).Some? {
      RouteOfUrl(base, TargetOf(row).value);
    }
  }

  /** The body and the URL of one row, as the loop body computes them. */
  method PrepareRequest(base: string, row: GridRow) returns (r: Option<Request>)
    ensures r == RequestFor(base, row)
  {
    var productData := BuildPayload(row);
    var target := TargetOf(row);
    if target.None? {
      return None;
    }
    return Some(Request(Url(base, target.value), productData));
  }

  /** `status_code in [200, 201]`. */
  predicate Succeeded(status: int) {
    status == 200 || status == 201
  }

  /** `min(a, b)`. */
  function Min(a: nat, b: nat): nat {
    if a <= b then a else b
  }

  /** The line reported for a failed update: the row's id, the status, and
      at most the first 300 characters of the reply. */
  function FailMessage(row: GridRow, reply: Response<string>): (msg: string)
    ensures var head := "ID " + Text(row.id) + " (HTTP " + IntText(reply.status) + "): ";
            && |head| <= |msg| && msg[..|head|] == head
            && msg[|head|..] <= reply.body
            && |msg| - |head| == Min(300, |reply.body|)
  {
    "ID " + Text(row.id) + " (HTTP " + IntText(reply.status) + "): " + reply.body[..Min(300, |reply.body|)]
  }

  // ----- The batch (app.py:152-197) -----

  /** `edited_df[edited_df["Update?"] == True]`: the ticked rows, in table order. */
  function Selected(rows: seq<GridRow>): seq<GridRow> {
    if rows == [] then []
    else
      var init := Selected(rows[..|rows| - 1]);
      var last := rows[|rows| - 1];
      if IsTrueFlag(last.update) then init + [last] else init
  }

  /** The selected rows are exactly the ticked rows of the table, and no more
      of them than the table has. */
  lemma {:induction false} SelectedRows(rows: seq<GridRow>)
    ensures |Selected(rows)| <= |rows|
    ensures forall r :: r in Selected(rows) <==> r in rows && IsTrueFlag(r.update)
  {
    if rows != [] {
      var init := rows[..|rows| - 1];
      var last := rows[|rows| - 1];
      SelectedRows(init);
      assert rows == init + [last];
    }
  }

  /** Selection keeps the order of the table: selecting from a table made of
      two parts selects from each part in turn. */
  lemma {:induction false} SelectedAppend(a: seq<GridRow>, b: seq<GridRow>)
    ensures Selected(a + b) == Selected(a) + Selected(b)
  {
    if b == [] {
      assert a + b == a;
    } else {
      var c := a + b;
      assert c[..|c| - 1] == a + b[..|b| - 1];
      SelectedAppend(a, b[..|b| - 1]);
    }
  }

  /** How many of the selected rows can be sent before one raises: all of
      them, or the index of the first whose id `int()` rejects. */
  function Routable(sel: seq<GridRow>): (k: nat)
    ensures k <= |sel|
    ensures forall j :: 0 <= j < k ==> TargetOf(sel[j]).Some?
    ensures k < |sel| ==> TargetOf(sel[k]).None?
  {
    if sel == [] || TargetOf(sel[0]).None? then 0 else 1 + Routable(sel[1..])
  }

  lemma RoutableAt(sel: seq<GridRow>, i: nat)
    requires i <= Routable(sel) && i < |sel|
    ensures TargetOf(sel[i]).Some? <==> i < Routable(sel)
  {
  }

  /** The requests for the first `n` selected rows, in order. */
  function RequestsUpTo(base: string, sel: seq<GridRow>, n: nat): (rs: seq<Request>)
    requires n <= Routable(sel)
    ensures |rs| == n
  {
    if n == 0 then [] else RequestsUpTo(base, sel, n - 1) + [RequestFor(base, sel[n - 1]).value]
  }

  /** The `j`-th request sent is the request for the `j`-th selected row. */
  lemma {:induction false} RequestsUpToAt(base: string, sel: seq<GridRow>, n: nat, j: nat)
    requires n <= Routable(sel) && j < n
    ensures Some(RequestsUpTo(base, sel, n)[j]) == RequestFor(base, sel[j])
  {
    var prev := RequestsUpTo(base, sel, n - 1);
    var last := RequestFor(base, sel[n - 1]).value;
    assert RequestsUpTo(base, sel, n) == prev + [last];
    if j < n - 1 {
      RequestsUpToAt(base, sel, n - 1, j);
      assert (prev + [last])[j] == prev[j];
    } else {
      assert (prev + [last])[j] == last;
    }
  }

  lemma RequestsUpToStep(base: string, sel: seq<GridRow>, i: nat)
    requires i < Routable(sel)
    ensures RequestsUpTo(base, sel, i + 1) == RequestsUpTo(base, sel, i) + [RequestFor(base, sel[i]).value]
  {
  }

  /** The replies to a sequence of requests: the `k`-th request gets the
      `k`-th reply of the catalog. */
  function Replies(respond: (nat, Request) -> Response<string>, requests: seq<Request>): seq<Response<string>> {
    seq(|requests|, k requires 0 <= k < |requests| => respond(k, requests[k]))
  }

  lemma RepliesAppend(respond: (nat, Request) -> Response<string>, requests: seq<Request>, r: Request)
    ensures Replies(respond, requests + [r]) == Replies(respond, requests) + [respond(|requests|, r)]
  {
  }

  /** Some reply succeeded (`ok`) or some reply failed (`!ok`). */
  predicate SomeReply(replies: seq<Response<string>>, ok: bool) {
    exists k :: 0 <= k < |replies| && Succeeded(replies[k].status) == ok
  }

  lemma SomeReplyStep(replies: seq<Response<string>>, ok: bool)
    requires replies != []
    ensures SomeReply(replies, ok) <==>
              SomeReply(replies[..|replies| - 1], ok) || Succeeded(replies[|replies| - 1].status) == ok
  {
    var init := replies[..|replies| - 1];
    if SomeReply(replies, ok) {
      var k :| 0 <= k < |replies| && Succeeded(replies[k].status) == ok;
      if k < |init| {
        assert init[k] == replies[k];
      }
    }
    if SomeReply(init, ok) {
      var k :| 0 <= k < |init| && Succeeded(init[k].status) == ok;
      assert replies[k] == init[k];
    }
  }

  /** The running count of updates and the failure lines. */
  datatype Tally = Tally(updated: nat, failed: seq<string>)

  /** The tally of the replies to the first `|replies|` selected rows, reply
      by reply: a success adds one update, a failure adds its line. */
  function TallyOf(sel: seq<GridRow>, replies: seq<Response<string>>): (t: Tally)
    requires |replies| <= |sel|
    ensures t.updated + |t.failed| == |replies|
  {
    if replies == [] then Tally(0, [])
    else
      var n := |replies| - 1;
      var t := TallyOf(sel, replies[..n]);
      if Succeeded(replies[n].status) then Tally(t.updated + 1, t.failed)
      else Tally(t.updated, t.failed + [FailMessage(sel[n], replies[n])])
  }

  /** The positions of the replies that succeeded (200 or 201). */
  function Successes(replies: seq<Response<string>>): set<nat> {
    set k: nat | k < |replies| && Succeeded(replies[k].status)
  }

  /** The failure line of a reply: none for a success, its line for a failure. */
  function FailLine(row: GridRow, reply: Response<string>): seq<string> {
    if Succeeded(reply.status) then [] else [FailMessage(row, reply)]
  }

  /** The failure line of each failed reply, once each, in row order. */
  function FailLines(sel: seq<GridRow>, replies: seq<Response<string>>): seq<string>
    requires |replies| <= |sel|
  {
    if replies == [] then [] else FailLine(sel[0], replies[0]) + FailLines(sel[1..], replies[1..])
  }

  /** Every reply counts once: `updated` is the number of replies that
      succeeded, and `failed` holds the line of each failed reply, once, in
      row order. */
  lemma TallyOfCounts(sel: seq<GridRow>, replies: seq<Response<string>>)
    requires |replies| <= |sel|
    ensures var t := TallyOf(sel, replies);
            && t.updated == |Successes(replies)|
            && t.failed == FailLines(sel, replies)
            && t.updated + |t.failed| == |replies|
  {
    TallyCountsSuccesses(sel, replies);
    TallyListsFailures(sel, replies);
  }

  lemma {:induction false} TallyCountsSuccesses(sel: seq<GridRow>, replies: seq<Response<string>>)
    requires |replies| <= |sel|
    ensures TallyOf(sel, replies).updated == |Successes(replies)|
  {
    if replies == [] {
      assert Successes(replies) == {};
    } else {
      var n := |replies| - 1;
      var init := replies[..n];
      TallyCountsSuccesses(sel, init);
      assert init + [replies[n]] == replies;
      SuccessesStep(init, replies[n]);
    }
  }

  lemma {:induction false} TallyListsFailures(sel: seq<GridRow>, replies: seq<Response<string>>)
    requires |replies| <= |sel|
    ensures TallyOf(sel, replies).failed == FailLines(sel, replies)
  {
    if replies != [] {
      var n := |replies| - 1;
      var init := replies[..n];
      TallyListsFailures(sel, init);
      assert init + [replies[n]] == replies;
      FailLinesStep(sel, init, replies[n]);
    }
  }

  /** There is an update exactly when some reply succeeded, a failure line
      exactly when some reply failed, and every failure line is that of a
      failed reply, naming its row. */
  lemma {:induction false} TallyWitnesses(sel: seq<GridRow>, replies: seq<Response<string>>)
    requires |replies| <= |sel|
    ensures var t := TallyOf(sel, replies);
            && (t.updated > 0 <==> SomeReply(replies, true))
            && (t.failed != [] <==> SomeReply(replies, false))
            && (forall m :: m in t.failed ==>
                  exists k :: 0 <= k < |replies| && !Succeeded(replies[k].status)
                              && m == FailMessage(sel[k], replies[k]))
  {
    if replies != [] {
      var n := |replies| - 1;
      var init := replies[..n];
      TallyWitnesses(sel, init);
      SomeReplyStep(replies, true);
      SomeReplyStep(replies, false);
      var t := TallyOf(sel, init);
      forall m | m in TallyOf(sel, replies).failed
        ensures exists k :: 0 <= k < |replies| && !Succeeded(replies[k].status)
                            && m == FailMessage(sel[k], replies[k])
      {
        if m in t.failed {
          var k :| 0 <= k < |init| && !Succeeded(init[k].status) && m == FailMessage(sel[k], init[k]);
          assert init[k] == replies[k];
        } else {
          assert !Succeeded(replies[n].status) && m == FailMessage(sel[n], replies[n]);
        }
      }
    }
  }

  /** A further reply adds its position to the successes when it succeeded. */
  lemma SuccessesStep(replies: seq<Response<string>>, r: Response<string>)
    ensures |Successes(replies + [r])| == |Successes(replies)| + if Succeeded(r.status) then 1 else 0
  {
    var s := Successes(replies);
    var s' := Successes(replies + [r]);
    assert |replies| !in s;
    if Succeeded(r.status) {
      assert s' == s + {|replies|};
    } else {
      assert s' == s;
    }
  }

  /** A further reply adds its failure line at the end when it failed. */
  lemma {:induction false} FailLinesStep(sel: seq<GridRow>, replies: seq<Response<string>>, r: Response<string>)
    requires |replies| < |sel|
    ensures FailLines(sel, replies + [r]) == FailLines(sel, replies) + FailLine(sel[|replies|], r)
  {
    var rs := replies + [r];
    if replies == [] {
      assert rs[1..] == [];
      assert FailLines(sel, rs) == FailLine(sel[0], r) + FailLines(sel[1..], []);
    } else {
      assert rs[1..] == replies[1..] + [r];
      FailLinesStep(sel[1..], replies[1..], r);
      assert sel[1..][|replies[1..]|] == sel[|replies|];
      assert FailLines(sel, rs) == FailLine(sel[0], rs[0]) + FailLines(sel[1..], rs[1..]);
      assert FailLines(sel, replies) == FailLine(sel[0], replies[0]) + FailLines(sel[1..], replies[1..]);
    }
  }

  lemma TallyStep(sel: seq<GridRow>, replies: seq<Response<string>>, r: Response<string>)
    requires |replies| < |sel|
    ensures var t := TallyOf(sel, replies);
            TallyOf(sel, replies + [r])
            == if Succeeded(r.status) then Tally(t.updated + 1, t.failed)
               else Tally(t.updated, t.failed + [FailMessage(sel[|replies|], r)])
  {
    assert (replies + [r])[..|replies|] == replies;
  }

  /** How a click on "Update Selected Products" ends. */
  datatype BatchOutcome =
    | NothingSelected                              // "No rows selected for update."
    | Finished(updated: nat, failed: seq<string>)  // every selected row was sent
    | Aborted(at: nat)                             // `int()` raised on selected row `at`

  /** The requests a batch sends, in order. */
  function Sent(base: string, rows: seq<GridRow>): seq<Request> {
    var sel := Selected(rows);
    RequestsUpTo(base, sel, Routable(sel))
  }

  /** The outcome of a batch. */
  function Batch(base: string, rows: seq<GridRow>, respond: (nat, Request) -> Response<string>): BatchOutcome {
    var sel := Selected(rows);
    if sel == [] then NothingSelected
    else if Routable(sel) < |sel| then Aborted(Routable(sel))
    else
      var t := TallyOf(sel, Replies(respond, Sent(base, rows)));
      Finished(t.updated, t.failed)
  }

  /** The update loop as the source runs it. Also returns the requests it sends. */
  method UpdateSelected(base: string, rows: seq<GridRow>, respond: (nat, Request) -> Response<string>)
    returns (outcome: BatchOutcome, sent: seq<Request>)
    ensures outcome == Batch(base, rows, respond)
    ensures sent == Sent(base, rows)
  {
    var rowsToUpdate := Selected(rows);
    sent := [];
    if rowsToUpdate == [] {
      return NothingSelected, sent;
    }
    var updatedCount := 0;
    var failed := [];
    ghost var replies := [];
    var i := 0;
    while i < |rowsToUpdate|
      invariant i <= Routable(rowsToUpdate)
      invariant sent == RequestsUpTo(base, rowsToUpdate, i)
      invariant replies == Replies(respond, sent)
      invariant Tally(updatedCount, failed) == TallyOf(rowsToUpdate, replies)
    {
      var row := rowsToUpdate[i];
      var prepared := PrepareRequest(base, row);
      RoutableAt(rowsToUpdate, i);
      if prepared.None? {
        return Aborted(i), sent;
      }
      RequestsUpToStep(base, rowsToUpdate, i);
      var request := prepared.value;
      var resp := respond(i, request);
      RepliesAppend(respond, sent, request);
      sent := sent + [request];
      TallyStep(rowsToUpdate, replies, resp);
      replies := replies + [resp];
      if resp.status == 200 || resp.status == 201 {
        updatedCount := updatedCount + 1;
      } else {
        failed := failed + [FailMessage(row, resp)];
      }
      i := i + 1;
    }
    return Finished(updatedCount, failed), sent;
  }

  // ----- What the operator is shown -----

  /** A Streamlit notice. */
  datatype Notice = Info(text: string) | Success(text: string) | Error(text: string)

  /** `"\n".join(lines)`. */
  function JoinLines(lines: seq<string>): string {
    if lines == [] then ""
    else if |lines| == 1 then lines[0]
    else lines[0] + "\n" + JoinLines(lines[1..])
  }

  /** The notices shown at the end of a batch; an aborted batch shows the
      exception instead. */
  function Notices(outcome: BatchOutcome): seq<Notice> {
    match outcome
    case NothingSelected => [Info("No rows selected for update.")]
    case Aborted(_) => []
    case Finished(updated, failed) =>
      (if updated > 0 then [Success("Updated " + IntText(updated) + " product(s) successfully!")] else [])
      + (if failed != [] then [Error("Some updates failed:\n" + JoinLines(failed))] else [])
  }

  /** A finished batch of at least one row shows one or two notices: a
      success notice first exactly when something was updated, an error
      notice last exactly when something failed. */
  lemma NoticesOfFinished(updated: nat, failed: seq<string>)
    requires updated + |failed| > 0
    ensures var n := Notices(Finished(updated, failed));
            && 1 <= |n| <= 2
            && (n[0].Success? <==> updated > 0)
            && (n[|n| - 1].Error? <==> failed != [])
  {
    var success := if updated > 0 then [Success("Updated " + IntText(updated) + " product(s) successfully!")] else [];
    var error := if failed != [] then [Error("Some updates failed:\n" + JoinLines(failed))] else [];
    assert Notices(Finished(updated, failed)) == success + error;
  }

  /** A batch that sends every selected row reports it: a success notice
      exactly when some reply was 200 or 201, an error notice exactly when
      some reply was not. */
  lemma BatchReports(base: string, rows: seq<GridRow>, respond: (nat, Request) -> Response<string>,
                     updated: nat, failed: seq<string>)
    requires Batch(base, rows, respond) == Finished(updated, failed)
    ensures |Sent(base, rows)| == |Selected(rows)|
    ensures updated + |failed| == |Selected(rows)|
    ensures updated == |Successes(Replies(respond, Sent(base, rows)))|
    ensures failed == FailLines(Selected(rows), Replies(respond, Sent(base, rows)))
    ensures updated > 0 <==> SomeReply(Replies(respond, Sent(base, rows)), true)
    ensures failed != [] <==> SomeReply(Replies(respond, Sent(base, rows)), false)
    ensures var n := Notices(Finished(updated, failed));
            && 1 <= |n| <= 2
            && (n[0].Success? <==> updated > 0)
            && (n[|n| - 1].Error? <==> failed != [])
  {
    var sel := Selected(rows);
    assert sel != [] && Routable(sel) == |sel|;
    TallyOfCounts(sel, Replies(respond, Sent(base, rows)));
    TallyWitnesses(sel, Replies(respond, Sent(base, rows)));
    NoticesOfFinished(updated, failed);
  }

  // ----- Fetched rows sent back -----

  /** A fetched row of a product is sent to the product URL of its record's
      own "id" (which is the URL it was read from only when the catalog
      returns the id it was asked for), and a fetched variation row to that
      variation under its product. */
  lemma FetchedRowsRouteHome(base: string, p: Record, v: Record, pid: int, vid: int)
    requires Get(p, "id") == Int(pid) && Get(v, "id") == Int(vid)
    ensures RequestFor(base, BaseRow(p)).Some?
    ensures RequestFor(base, BaseRow(p)).value.url == ProductUrl(base, pid)
    ensures TargetOf(VariationRow(p, v)) == Some(VariationTarget(pid, vid))
  {
    ProductRowTarget(BaseRow(p), pid);
    var t := ProductTarget(pid);
    assert RequestFor(base, BaseRow(p)) == Some(Request(Url(base, t), Payload(BaseRow(p))));
    assert Url(base, t) == ProductUrl(base, pid);
    VariationRowTarget(VariationRow(p, v), pid, vid);
  }

  lemma ProductRowTarget(row: GridRow, id: int)
    requires row.parentId == Null && row.id == Int(id)
    ensures TargetOf(row) == Some(ProductTarget(id))
  {
    assert IsProductLevel(row.parentId);
  }

  lemma VariationRowTarget(row: GridRow, parent: int, id: int)
    requires row.parentId == Int(parent) && row.id == Int(id)
    ensures TargetOf(row) == Some(VariationTarget(parent, id))
  {
    assert !IsProductLevel(row.parentId);
  }

  /** A table where every row is selected and has an integer id is sent in
      full, row by row. */
  lemma FetchedTableSentInFull(base: string, first: Response<Record>, pages: seq<Page>,
                               respond: (nat, Request) -> Response<string>)
    requires Fetch(first, pages).Fetched?
    requires forall r :: r in Fetch(first, pages).rows ==> r.id.Int?
    ensures var rows := Fetch(first, pages).rows;
            Batch(base, rows, respond).Finished? && |Sent(base, rows)| == |rows|
  {
    var rows := Fetch(first, pages).rows;
    FetchedTable(first, pages);
    forall j | 0 <= j < |rows| ensures IsTrueFlag(rows[j].update) && TargetOf(rows[j]).Some? {
      FetchedRowSendable(rows, j);
    }
    BatchOfSendable(base, rows, respond);
  }

  lemma FetchedRowSendable(rows: seq<GridRow>, j: nat)
    requires j < |rows| && rows[j] in rows
    requires forall r :: r in rows ==> r.id.Int? && Normalised(r)
    requires rows[0].parentId == Null
    requires forall i :: 1 <= i < |rows| ==> rows[i].parentId == rows[0].id
    ensures IsTrueFlag(rows[j].update) && TargetOf(rows[j]).Some?
  {
    assert rows[0] in rows;
  }

  /** A non-empty table whose rows are all selected and all have a target is
      sent in full. */
  lemma BatchOfSendable(base: string, rows: seq<GridRow>, respond: (nat, Request) -> Response<string>)
    requires rows != []
    requires forall j :: 0 <= j < |rows| ==> IsTrueFlag(rows[j].update) && TargetOf(rows[j]).Some?
    ensures Batch(base, rows, respond).Finished? && |Sent(base, rows)| == |rows|
  {
    AllSelected(rows);
    RoutableAll(rows);
  }

  lemma {:induction false} AllSelected(rows: seq<GridRow>)
    requires forall j :: 0 <= j < |rows| ==> IsTrueFlag(rows[j].update)
    ensures Selected(rows) == rows
  {
    if rows != [] {
      var init := rows[..|rows| - 1];
      assert forall j :: 0 <= j < |init| ==> init[j] == rows[j];
      AllSelected(init);
      assert rows == init + [rows[|rows| - 1]];
    }
  }

  lemma {:induction false} RoutableAll(sel: seq<GridRow>)
    requires forall j :: 0 <= j < |sel| ==> TargetOf(sel[j]).Some?
    ensures Routable(sel) == |sel|
  {
    if sel != [] {
      var rest := sel[1..];
      forall j | 0 <= j < |rest| ensures TargetOf(rest[j]).Some? {
        assert rest[j] == sel[j + 1];
      }
      RoutableAll(rest);
    }
  }
}

=== FILE: wrappers.dfy ===
/** Optional values: Python's "a value or None" in the places where the model needs one. */
module Wrappers {

  datatype Option<+T> = None | Some(value: T)
}
